=== FILE: README.md ===
# ObjectButton gesture state machine in Dafny

ObjectButton is an Arduino library that turns a polled push button into
gesture notifications: press, release, click, double-click, long-press-start
and long-press-end. The owner calls `tick()` from its loop. Each tick reads
the input and the millisecond clock once (an `AnalogButton` compiled for AVR
reads its pin twice, see below) and advances a four-state machine
(NOT_PRESSED, PRESSED, RELEASED, DOUBLE_CLICKED), which has two flags
(long press, press notified), two timestamps and three thresholds (debounce,
click, long press).

This project models that machine as a pure step function:

    Tick(button, active, now) == TickResult(button', events)

- `active` is the value of the input predicate.
- `now` is the 32-bit clock reading.
- `events` lists the `notifyOn*` calls of that tick, in firing order.

Modules:

- `Clock`: 32-bit time and the wrapping elapsed-time subtraction.
- `Events`: the six notifications; counting them; the flag discipline behind "at most once per episode".
- `Listeners`: the three listener slots and the null-checked dispatch of the `notifyOn*` helpers.
- `BaseButton`: the abstract `Button` class, covering the state record, `tick()`, `reset()`, the setters and the queries.
- `TickRuns`: finite sequences of ticks and the properties that only hold over several ticks.
- `Digital`: `DigitalButton`, a level compare with invertible polarity.
- `Analog`: `AnalogButton`, a strict target ± margin window with its own button ID.
- `ObjectButtonRevision`: the older single-class `ObjectButton`, which compares the digital level inside `tick()`. Equivalence lemmas tie it to `BaseButton` and `Digital`.
- `Scenarios`: the library's unit-test scenarios and further traces of `tick()`, each replayed as a sequence of ticks; the lemmas state the notification log and the queries at the end of each trace.

Behaviour of the code that a reader may not expect (only the long-press flag is documented, by the field comments in `Button.h`, and the code goes further than they say):

- In RELEASED, long-press-end and click ignore the input level once the re-press test fails.
- Long-press-end can fire without a long-press-start.
- The long-press flag can carry over into the next press episode.

Each of these is stated as a lemma.

The code also differs from two of its own comments:

- The comment in `tick()` warns that a `millis()` overflow triggers a false event. The elapsed time is an unsigned subtraction, though, and that measures any duration shorter than 2^32 ms correctly across the wrap (`Clock.ElapsedMeasuresTrueDuration`, `Scenarios.GenuineWrapMeasured`). The overflow unit test does see a premature press. That press comes from its mock clock, `micros / 1000`, which jumps from 4294966 to 1 at the wrap; it is not a wrap of the millisecond counter (`Scenarios.MockClockJumpFiresPress`).
- The comment on `AnalogButton::getId()` says the ID is the input pin number. The code returns the ID given to the constructor (`Analog.IdNamesTheButton`).

## Model

| member | source | states |
|---|---|---|
| Clock.Elapsed | src/base/Button.cpp:193-199 | the elapsed time is the unique 32-bit value that, added to the earlier reading, gives the current one modulo 2^32 |
| Clock.ElapsedMeasuresTrueDuration | src/base/Button.cpp:193-199 | unsigned subtraction recovers any true duration shorter than the counter period, across the wrap included |
| Clock.ElapsedMonotone | src/base/Button.cpp:199 | without a wrap, elapsed time grows exactly as the clock does |
| Events.Count | test/action_double_click.cpp:43-48 | a listener's event count is at most the log length, and is zero exactly when the event is absent |
| Events.GuardedCount | src/base/Button.h:135-141 | under a set/clear flag discipline, the guarded event occurs at most once more than the clearing event, and not even once more when the flag starts set |
| Events.GuardedSeparates | src/base/Button.h:135-141 | under that discipline, any two guarded events have a clearing event between them |
| Listeners.Notify | src/base/Button.cpp:259-302 | a notify helper makes at most one call, on the listener responsible for that event, and none exactly when that listener is null |
| Listeners.NotifyCount | src/base/Button.cpp:259-302 | a notify helper delivers its own event once when its listener is set, and no other event |
| Listeners.Deliver | src/base/Button.cpp:259-302 | a log of notifications calls only responsible listeners, for events in the log, never more calls than notifications |
| Listeners.DeliverCount | src/base/Button.cpp:259-302 | each event of a log reaches its responsible listener exactly as often as it occurs in the log when that listener is set, and never when it is null |
| Listeners.DeliverAppend | src/base/Button.cpp:259-302 | callbacks happen in log order: the callbacks of a log split in two are those of the first part followed by those of the second, and a single notification goes through its notify helper |
| Listeners.DeliverAllRegistered | src/base/Button.cpp:259-302 | with all three listeners set, each notification becomes exactly one call, in order, on the listener responsible for it |
| Listeners.DeliverNoneRegistered | src/base/Button.cpp:259-302 | with no listener set, every notification is dropped |
| BaseButton.IsLongPressed | src/base/Button.cpp:160-162 | a long-pressed button is pressed |
| BaseButton.Init | src/base/Button.h:100-161 | a fresh button is neither pressed nor long pressed, has no listeners, and stays idle under an inactive input at any time |
| BaseButton.Reset | src/base/Button.cpp:171-181 | reset gives the freshly constructed record with default thresholds, keeping only the listeners |
| BaseButton.SetDebounceTicks | src/base/Button.cpp:117-119 | the debounce threshold takes the new value and nothing else changes |
| BaseButton.SetClickTicks | src/base/Button.cpp:129-131 | the click threshold takes the new value and nothing else changes |
| BaseButton.SetLongPressTicks | src/base/Button.cpp:141-143 | the long-press threshold takes the new value and nothing else changes |
| BaseButton.SetOnClickListener | src/base/Button.cpp:60-62 | clicks now go to the new listener; routing of every other event and all other fields are unchanged |
| BaseButton.SetOnDoubleClickListener | src/base/Button.cpp:80-82 | double-clicks now go to the new listener; routing of every other event and all other fields are unchanged |
| BaseButton.SetOnPressListener | src/base/Button.cpp:103-105 | press, release and both long-press events now go to the new listener; click and double-click routing are unchanged |
| BaseButton.Tick | src/base/Button.cpp:190-254 | thresholds and listeners are never changed; at most one notification per tick, except press together with long-press-start; each notification implies the state change and flag change it stands for, and each flag changes only together with its notification; click only between the click and long-press thresholds; the press timestamp is only restamped to the current reading |
| BaseButton.TickLogDistinct | src/base/Button.cpp:209-219 | no notification occurs twice in one tick |
| BaseButton.TickCallbacks | src/base/Button.cpp:190-302 | every callback of one tick goes to the listener registered for its event, and only for an event the tick fires; each fired event with a set registration is delivered exactly once, and no other callback happens |
| BaseButton.IsPressedAfterTick | src/base/Button.cpp:149-151 | after a tick from NOT_PRESSED or PRESSED the button is pressed exactly when the input is active, and after a tick from RELEASED or DOUBLE_CLICKED it is not; it is pressed on the edge tick, before the press notification |
| BaseButton.IdleTransition | src/base/Button.cpp:202-208 | NOT_PRESSED: an active input enters PRESSED stamped with the current reading, silently; otherwise nothing changes |
| BaseButton.HeldTransition | src/base/Button.cpp:210-219 | PRESSED and held: press fires iff elapsed strictly exceeds debounce and it is not yet notified; long-press-start fires iff elapsed strictly exceeds long press and the flag is clear; the flags are then set and nothing else changes |
| BaseButton.LetGoTransition | src/base/Button.cpp:220-229 | PRESSED and let go: within debounce, back to NOT_PRESSED silently; after it, RELEASED with the press flag cleared and release fired; the release time is restamped either way |
| BaseButton.ReleasedTransition | src/base/Button.cpp:232-245 | RELEASED follows the priority chain debounced re-press, then long-press-end, then click, then nothing, with exactly the stated record for each outcome |
| BaseButton.DoubleClickedTransition | src/base/Button.cpp:246-252 | DOUBLE_CLICKED: a debounced second release fires double-click and returns to NOT_PRESSED; otherwise nothing changes |
| BaseButton.PressAndLongStartTogether | src/base/Button.cpp:210-219 | a late first tick after the press edge fires press and long-press-start together |
| BaseButton.NoLongPressAtThreshold | src/base/Button.cpp:216-219 | held for exactly the long-press time, there is no long-press-start and the button is not long pressed |
| BaseButton.LongPressEndWithoutStart | src/base/Button.cpp:236-239 | with sparse ticks, a gesture can end with long-press-end although long-press-start never fired |
| BaseButton.LongPressEndWhileActive | src/base/Button.cpp:233-239 | a re-press within the debounce time of the release still ends the long press |
| BaseButton.LongFlagCarriesOver | src/base/Button.cpp:232-239 | a long press followed by a double click leaves the long flag set, so the next press is long from its first tick and its long-press-start is never sent |
| BaseButton.ReconfigureClickMidGesture | src/base/Button.cpp:240-243 | raising the click time after the release defers the click on the very next tick |
| BaseButton.SettersCommute | src/base/Button.cpp:117-143 | the three threshold setters commute |
| BaseButton.ResetForgetsHistory | src/base/Button.cpp:171-181 | reset is idempotent and undoes any tick and any threshold setter; listener registrations survive it, so a registration made before a reset is still in place after it |
| TickRuns.Run | src/base/Button.cpp:190-254 | a sequence of ticks never reconfigures the button and fires at most two notifications per tick |
| TickRuns.RunAppend | src/base/Button.cpp:190-254 | ticking through two sample sequences in turn is ticking through their concatenation |
| TickRuns.TickGuardsPress | src/base/Button.cpp:211-226 | one tick respects the press-notified discipline, and the flag afterwards is the one the discipline predicts |
| TickRuns.TickGuardsLongPress | src/base/Button.cpp:216-239 | one tick respects the long-press flag discipline, and the flag afterwards is the one the discipline predicts |
| TickRuns.RunGuardsPress | src/base/Button.cpp:211-226 | any sequence of ticks respects the press-notified discipline |
| TickRuns.RunGuardsLongPress | src/base/Button.cpp:216-239 | any sequence of ticks respects the long-press flag discipline |
| TickRuns.PressOncePerEpisode | src/base/Button.h:135-141 | over any ticks, clock and configuration, two presses always have a release between them, and presses exceed releases by at most one |
| TickRuns.LongPressStartOncePerEpisode | src/base/Button.h:127-133 | two long-press-starts always have a long-press-end between them, and starts exceed ends by at most one |
| TickRuns.TickKeepsNotifiedInv | src/base/Button.cpp:211-228 | one tick with a non-decreasing clock keeps "press notified implies PRESSED, past debounce" |
| TickRuns.NotifiedOnlyWhilePressed | src/base/Button.h:135-141 | with a monotone, non-wrapping clock, the press-notified flag is only ever set in PRESSED |
| TickRuns.ResetEstablishesNotifiedInv | src/base/Button.cpp:171-181 | a fresh or reset button satisfies that invariant from any clock reading on |
| TickRuns.RaisedDebounceStrandsPressFlag | src/base/Button.cpp:221-228 | raising the debounce time after a notified press makes the release noise, leaving the flag set, and the next press never sends press |
| TickRuns.StableRunsQuiet | src/base/Button.cpp:201-253 | a record at rest under a sample stays at rest, silently, for any number of ticks on that sample |
| TickRuns.SettlesWithinTwoTicks | src/base/Button.cpp:201-253 | at a fixed input and clock reading the machine is at rest after two ticks, and the second fires only after a release |
| TickRuns.RepeatedLog | src/base/Button.cpp:201-253 | the log of any number of ticks at one input and clock reading is the log of at most the first two |
| TickRuns.RepeatedTicksDoNotRepeat | src/base/Button.cpp:201-253 | repeated ticks at one input and clock reading never send any notification twice |
| Digital.PressedLevel | src/digital/DigitalButton.cpp:33-35 | a pull-up input is pressed at LOW, any other at HIGH |
| Digital.NewDigitalButton | src/digital/DigitalButton.cpp:33-48 | a fresh machine, identified by its pin, whose logic counts as inverted exactly for a pull-up input |
| Digital.InvertInputLogic | src/digital/DigitalButton.cpp:57-71 | every reading flips its meaning, the inversion query flips, and nothing but the pressed level changes |
| Digital.InvertTwiceRestores | src/digital/DigitalButton.cpp:57-59 | inverting twice restores the button |
| Digital.DigitalTick | src/digital/DigitalButton.cpp:77-79 | fires exactly the notifications, and leaves exactly the state machine, of the base tick whose input is "reading equals pressed level"; keeps the pin and pressed level |
| Analog.NewAnalogButton | src/analog/AnalogButton.cpp:37-41 | a fresh machine with the given target, the default margin of 50, and the caller's ID |
| Analog.IsButtonPressed | src/analog/AnalogButton.cpp:62-64 | active exactly when the reading lies strictly inside target ± margin |
| Analog.IsButtonPressedTwoReads | src/analog/AnalogButton.cpp:62-64 | with the AVR `abs` macro the first reading picks the side of the target and the second is tested against that side's bound only; two equal readings give the window test |
| Analog.TwoReadsAcceptOutsideWindow | src/analog/AnalogButton.cpp:62-64 | readings 1100 then 900 against target 1000 and margin 50 count as pressed, though neither reading lies in the window |
| Analog.ZeroMarginNeverActive | src/analog/AnalogButton.cpp:62-64 | a zero margin never matches |
| Analog.SetVoltageMargin | src/analog/AnalogButton.cpp:73-75 | the margin takes the new value and nothing else changes |
| Analog.AnalogTick | src/analog/AnalogButton.cpp:62-64 | fires exactly the notifications, and leaves exactly the state machine, of the base tick whose input is the margin window; changes nothing else |
| Analog.IdNamesTheButton | src/analog/AnalogButton.cpp:53-55 | the ID is the one given at construction whatever the pin, so two buttons on one pin have equal IDs only when built with equal IDs; ticks and margin changes keep it |
| Analog.MarginBoundaries | test/analog_button_action_pressed.cpp:30-180 | at margin 50, offsets up to 49 either way are active and 50 is not; at margin 100 the limit is 99 |
| ObjectButtonRevision.NewObjectButton | src/ObjectButton.cpp:34-38 | the state machine starts as a fresh `Button`, the ID is the pin, and the pressed level is LOW exactly when active-low |
| ObjectButtonRevision.Reset | src/ObjectButton.cpp:186-196 | the state-machine part is reset as `Button::reset`; pin and pressed level are kept; not long pressed afterwards |
| ObjectButtonRevision.SetDebounceTicks | src/ObjectButton.cpp:132-134 | agrees with the `Button` setter, with pin and level kept |
| ObjectButtonRevision.SetClickTicks | src/ObjectButton.cpp:144-146 | agrees with the `Button` setter, with pin and level kept |
| ObjectButtonRevision.SetLongPressTicks | src/ObjectButton.cpp:156-158 | agrees with the `Button` setter, with pin and level kept |
| ObjectButtonRevision.SetOnClickListener | src/ObjectButton.cpp:74-76 | agrees with the `Button` click-listener setter, with pin and level kept |
| ObjectButtonRevision.SetOnDoubleClickListener | src/ObjectButton.cpp:94-96 | agrees with the `Button` double-click-listener setter, with pin and level kept |
| ObjectButtonRevision.SetOnPressListener | src/ObjectButton.cpp:118-120 | agrees with the `Button` press-listener setter, with pin and level kept |
| ObjectButtonRevision.Tick | src/ObjectButton.cpp:205-266 | the pin and the pressed level are never changed |
| ObjectButtonRevision.TickMatchesBase | src/ObjectButton.cpp:205-266 | one tick equals a `Button` tick whose input predicate is "level equals pressed level", in state and in notifications |
| ObjectButtonRevision.IdIsPin | src/ObjectButton.cpp:49-51 | the ID is the pin given at construction, and ticks and reset keep it |
| ObjectButtonRevision.TickCallbacks | src/ObjectButton.cpp:271-314 | the notify helpers of this revision call the same listeners as those of `Button` on the same tick: each callback goes to the listener registered for its event, each fired event with a set registration is delivered exactly once, and nothing else is called |
| ObjectButtonRevision.DigitalMatchesObjectButton | src/ObjectButton.cpp:205-266 | built alike, the old revision and `DigitalButton` fire the same notifications and reach the same state on any reading |
| ObjectButtonRevision.ConstructorsMatch | src/ObjectButton.cpp:34-38 | an active-low `ObjectButton` is built like a pull-up `DigitalButton` |
| ObjectButtonRevision.QueriesMatchBase | src/ObjectButton.cpp:164-177 | both queries agree with the `Button` queries |
| ObjectButtonRevision.Run | src/ObjectButton.cpp:205-266 | a sequence of ticks keeps the pin and the pressed level |
| ObjectButtonRevision.AsSamples | src/ObjectButton.cpp:207-215 | each pin reading becomes the active flag "level equals pressed level", at the same clock reading |
| ObjectButtonRevision.RunMatchesBase | src/ObjectButton.cpp:205-266 | over any sequence of ticks, the two revisions reach the same state and fire the same notifications |
| Scenarios.SanityChecks | test/sanity_checks.cpp:6-20 | the ID is the pin (the analog ID is the caller's), and a fresh or reset button is not long pressed |
| Scenarios.AnalogPressAfterDebounce | test/analog_button_action_pressed.cpp:30-108 | the tests' analog button (ID 10, pin 10, target 1000), held at one reading for two ticks 51 ms apart, fires only press, and that exactly when 950 < reading < 1050 |
| Scenarios.AnalogPressAfterDebounceWideMargin | test/analog_button_action_pressed.cpp:110-182 | the same button with margin 100 fires only press, and that exactly when 900 < reading < 1100 |
| Scenarios.DoubleClickBeforeClickTicks | test/action_double_click.cpp:15-49 | the log is exactly press, release, double-click |
| Scenarios.DoubleClickAfterClickTicks | test/action_double_click.cpp:51-85 | with the first release near the click time, the log is still exactly press, release, double-click |
| Scenarios.SingleClick | src/base/Button.cpp:240-243 | press, release and no re-press until past the click time give press, release, click |
| Scenarios.HeldLongPress | src/base/Button.cpp:210-219 | held 600 ms: press and long-press-start, and long pressed |
| Scenarios.HeldLongPressReleased | src/base/Button.cpp:220-239 | released after the long press: press, long-press-start, release, long-press-end |
| Scenarios.MockClockJumpFiresPress | test/millis_counter_overflow.cpp:30-47 | the clock jump of the overflow scenario fires press on its first tick, together with long-press-start |
| Scenarios.GenuineWrapMeasured | src/base/Button.cpp:193-199 | a press straddling a genuine 32-bit wrap measures 2 ms and fires nothing |
| Scenarios.GenuineWrapPressAfterDebounce | src/base/Button.cpp:193-199 | across the wrap, press fires once the true 52 ms exceed the debounce time |
| Scenarios.ActiveLowPressDetected | test/action_press_release.cpp:15-21 | active-low, LOW, one tick: pressed |
| Scenarios.ActiveHighPressDetected | test/action_press_release.cpp:23-31 | active-high, HIGH, one tick: pressed |
| Scenarios.IdleLevelNotPressed | test/action_press_release.cpp:33-39 | active-low, HIGH: not pressed |
| Scenarios.PressReleaseDefaultDebounce | test/action_press_release.cpp:41-62 | press and release only, and not pressed afterwards |
| Scenarios.PressReleaseCustomDebounce | test/action_press_release.cpp:64-88 | the same with a 30 ms debounce time |
| Scenarios.BounceWithinDefaultDebounce | test/action_press_release.cpp:90-109 | a release within the debounce time fires nothing |
| Scenarios.BounceWithinCustomDebounce | test/action_press_release.cpp:111-131 | the same with a 30 ms debounce time |
| Scenarios.HeldExactlyLongPressTicks | test/action_press_release.cpp:133-146 | held exactly 500 ms: press only, pressed but not long pressed |
| Scenarios.HeldExactlyLongPressTicksReleased | test/action_press_release.cpp:133-156 | then released: press and release only, no long-press, click or double-click |

## Left out

- Hardware I/O: `pinMode`, `digitalRead`, `analogRead` and `millis()` are not modelled. The input predicate's value and the clock reading are parameters of each tick.
- `inputPullUp` / `activeLow` select the pin mode. That part is hardware configuration and is not modelled. Only the pressed-level mapping is.
- Listener objects and virtual dispatch: a callback is a record naming the listener and the event. The `Button&` argument passed to callbacks is not modelled. The model therefore assumes that a listener does not call `reset()` or a setter on the button during the tick that notifies it. In the code such a call is seen by the rest of that `tick()`: for example, the release branch stores the release time only after `notifyOnButtonRelease()` has returned.
- The listener interface headers under `src/interfaces/` are not part of this model. The shown `IOnPressListener.h` declares fewer callbacks than `Button.cpp` calls, and the model follows the calls.
- `DigitalSensor` and `AnalogSensor` only forward to the button constructors, so they are not modelled separately.
- The unit-test framework (the listener mock and the simulated board state) is not part of this model. Each scenario replaces it with a trace of (input, clock reading) samples. The mock's clock is `micros / 1000`, and the traces use that millisecond value.
- The C++ default arguments (`activeLow = true` of the `ObjectButton` constructor, `inputPullUp = true` of the `DigitalButton` and `AnalogButton` constructors) are not modelled: every model constructor takes that flag explicitly.
- Calling `tick()` from an interrupt handler, and any concurrent access, are not modelled.
- Analog.IsButtonPressed: computes the difference of the reading and the target as a signed mathematical integer, which is what a host with 32-bit `int` does. On 8-bit AVR targets `int` is 16 bits, so the `uint16_t` target makes the difference unsigned. A reading below the target then wraps to a large value. That promotion is not modelled. The model also takes one reading per call, while the AVR core's `abs` macro evaluates `analogRead` twice, so on AVR the window is decided by two readings that may differ; `IsButtonPressedTwoReads` models that double read on its own, but `AnalogTick` and the scenarios use the single reading.
- `unsigned long` is modelled as 32 bits, as on the library's Arduino targets. A host with a 64-bit `unsigned long` would not wrap at 2^32.
- The abstract `getId()` and `isButtonPressed()` hooks of `Button` become the concrete `GetId` and input-predicate functions of each variant. There is no class hierarchy.
- TickRuns.NotifiedOnlyWhilePressed: assumes a monotone, non-wrapping clock and no setter call during the run. `RaisedDebounceStrandsPressFlag` shows that the invariant fails when the debounce time is raised mid-gesture.

=== FILE: analog.dfy ===
/**
 `AnalogButton`: a `Button` on an analog pin, active while the reading
 stays strictly within a margin of the button's target voltage. Several
 analog buttons can share one pin, so each carries an explicit ID. The pin
 read (`analogRead`) becomes the `reading` parameter of a tick.
 */
module Analog {
  import opened Clock
  import opened Events
  import BaseButton

  /** Default voltage margin, in `analogRead` units. */
  const DefaultVoltageMargin: u16 := 50

  datatype AnalogButton = AnalogButton(buttonId: u8, pin: u8, voltage: u16, margin: u16,
                                       base: BaseButton.Button)

  datatype AnalogTickResult = AnalogTickResult(button: AnalogButton, events: seq<Event>)

  function Abs(x: int): nat
  {
    if x < 0 then -x else x
  }

  /** The constructor. `inputPullUp` only selects the pin mode, which is
      hardware configuration outside this model. */
  function NewAnalogButton(buttonId: u8, pin: u8, voltage: u16, inputPullUp: bool): (a: AnalogButton)
    ensures a.base == BaseButton.Init()
    ensures a.voltage == voltage && a.margin == DefaultVoltageMargin
    ensures GetId(a) == buttonId
  {
    AnalogButton(buttonId, pin, voltage, DefaultVoltageMargin, BaseButton.Init())
  }

  /** The ID given at construction, not the pin. */
  function GetId(a: AnalogButton): int
  {
    a.buttonId
  }

  /** `isButtonPressed()`: the reading lies in the open window target ± margin. */
  function IsButtonPressed(a: AnalogButton, reading: int): (r: bool)
    ensures r <==> a.voltage - a.margin < reading < a.voltage + a.margin
  {
    Abs(reading - a.voltage) < a.margin
  }

  /** `isButtonPressed()` as the AVR core compiles it. There `abs` is a
      macro that evaluates its argument twice, so the pin is read twice:
      the `first` reading selects the sign and the `second` supplies the
      value. With two equal readings this is the window test above. */
  function IsButtonPressedTwoReads(a: AnalogButton, first: int, second: int): (r: bool)
    ensures first == second ==> (r <==> IsButtonPressed(a, first))
    ensures first > a.voltage ==> (r <==> second < a.voltage + a.margin)
    ensures first <= a.voltage ==> (r <==> a.voltage - a.margin < second)
  {
    (if first - a.voltage > 0 then second - a.voltage else -(second - a.voltage)) < a.margin
  }

  /** With a changing reading the double read accepts a button that neither
      reading alone would: above the target on the first read and far below
      it on the second counts as pressed. */
  lemma TwoReadsAcceptOutsideWindow()
    ensures var a := NewAnalogButton(10, 10, 1000, true);
            && IsButtonPressedTwoReads(a, 1100, 900)
            && !IsButtonPressed(a, 1100) && !IsButtonPressed(a, 900)
  {
  }

  /** The window is open on both ends, so a zero margin never matches. */
  lemma ZeroMarginNeverActive(a: AnalogButton, reading: int)
    requires a.margin == 0
    ensures !IsButtonPressed(a, reading)
  {
  }

  /** `setVoltageMargin()` overwrites the margin and nothing else. */
  function SetVoltageMargin(a: AnalogButton, m: u16): (r: AnalogButton)
    ensures r.margin == m
    ensures r.(margin := a.margin) == a
  {
    a.(margin := m)
  }

  /** `tick()` of an analog button: the base machine fed with this button's
      view of the reading. */
  function AnalogTick(a: AnalogButton, reading: int, now: u32): (r: AnalogTickResult)
    ensures r.button.(base := a.base) == a
    ensures r.button.base == BaseButton.Tick(a.base, IsButtonPressed(a, reading), now).button
    ensures r.events == BaseButton.Tick(a.base, IsButtonPressed(a, reading), now).events
  {
    var t := BaseButton.Tick(a.base, IsButtonPressed(a, reading), now);
    AnalogTickResult(a.(base := t.button), t.events)
  }

  /** The ID tells apart buttons sharing a pin: it is the one chosen at
      construction whatever the pin, and neither ticks nor a new margin
      change it. */
  lemma IdNamesTheButton(a: AnalogButton, id1: u8, id2: u8, pin: u8, v1: u16, v2: u16,
                         reading: int, now: u32, m: u16)
    ensures var b1 := NewAnalogButton(id1, pin, v1, true);
            var b2 := NewAnalogButton(id2, pin, v2, false);
            GetId(b1) == GetId(b2) <==> id1 == id2
    ensures GetId(AnalogTick(a, reading, now).button) == GetId(a)
    ensures GetId(SetVoltageMargin(a, m)) == GetId(a)
  {
  }

  /** The window at the two margins the library is exercised with: at the
      default margin 50, offsets up to 49 either way count as pressed and 50
      does not; at margin 100 the limit moves to 99. */
  lemma MarginBoundaries(buttonId: u8, pin: u8, target: u16, d: int)
    requires 0 <= d
    ensures var a := NewAnalogButton(buttonId, pin, target, true);
            && (IsButtonPressed(a, target + d) <==> d < 50)
            && (IsButtonPressed(a, target - d) <==> d < 50)
    ensures var a := SetVoltageMargin(NewAnalogButton(buttonId, pin, target, true), 100);
            && (IsButtonPressed(a, target + d) <==> d < 100)
            && (IsButtonPressed(a, target - d) <==> d < 100)
  {
  }
}

=== FILE: button.dfy ===
/**
 The gesture state machine of the abstract `Button` class: its state
 record, `tick()`, `reset()`, the threshold and listener setters and the two
 queries. The input sample (`isButtonPressed()`, supplied by a subclass) and
 the clock reading (`millis()`) are parameters of a tick.
 */
module BaseButton {
  import opened Clock
  import opened Events
  import opened Listeners

  /** Default thresholds in milliseconds. */
  const DefaultDebounceTicks: u8 := 50
  const DefaultClickTicks: u16 := 250
  const DefaultLongPressTicks: u16 := 500

  /** The four states; a long press is a flag, not a state. */
  datatype State = NotPressed | Pressed | Released | DoubleClicked

  /** The three configurable thresholds, at their source widths. */
  datatype Thresholds = Thresholds(debounce: u8, click: u16, longPress: u16)

  const DefaultThresholds := Thresholds(DefaultDebounceTicks, DefaultClickTicks, DefaultLongPressTicks)

  /**
   The mutable fields of a `Button`.
   - `isLongPress` is set once a held press exceeds the long-press threshold;
   - `pressNotified` records that `onPress` was sent, so it is not repeated;
   - `pressedTime`, `releasedTime` are the clock readings of the last press
     and release edges.
   */
  datatype Button = Button(state: State,
                           isLongPress: bool,
                           pressNotified: bool,
                           pressedTime: u32,
                           releasedTime: u32,
                           ticks: Thresholds,
                           listeners: Slots)

  /** The outcome of one tick: the new record and the notifications fired,
      in firing order. */
  datatype TickResult = TickResult(button: Button, events: seq<Event>)

  predicate IsPressed(b: Button) {
    b.state == Pressed
  }

  function IsLongPressed(b: Button): (r: bool)
    ensures r ==> IsPressed(b)
  {
    b.state == Pressed && b.isLongPress
  }

  /** A freshly constructed button. */
  function Init(): (b: Button)
    ensures !IsPressed(b) && !IsLongPressed(b)
    ensures b.listeners == NoListeners
    ensures forall now: u32 :: Tick(b, false, now) == TickResult(b, [])
  {
    Button(NotPressed, false, false, 0, 0, DefaultThresholds, NoListeners)
  }

  /** `reset()`: back to the freshly constructed state, custom thresholds
      included; only the registered listeners survive. */
  function Reset(b: Button): (r: Button)
    ensures r == Init().(listeners := b.listeners)
    ensures !IsLongPressed(r)
  {
    Button(NotPressed, false, false, 0, 0, DefaultThresholds, b.listeners)
  }

  function SetDebounceTicks(b: Button, t: u8): (r: Button)
    ensures r.ticks.debounce == t
    ensures r.ticks.click == b.ticks.click && r.ticks.longPress == b.ticks.longPress
    ensures r.(ticks := b.ticks) == b
  {
    b.(ticks := b.ticks.(debounce := t))
  }

  function SetClickTicks(b: Button, t: u16): (r: Button)
    ensures r.ticks.click == t
    ensures r.ticks.debounce == b.ticks.debounce && r.ticks.longPress == b.ticks.longPress
    ensures r.(ticks := b.ticks) == b
  {
    b.(ticks := b.ticks.(click := t))
  }

  function SetLongPressTicks(b: Button, t: u16): (r: Button)
    ensures r.ticks.longPress == t
    ensures r.ticks.debounce == b.ticks.debounce && r.ticks.click == b.ticks.click
    ensures r.(ticks := b.ticks) == b
  {
    b.(ticks := b.ticks.(longPress := t))
  }

  function SetOnClickListener(b: Button, l: Option<ListenerRef>): (r: Button)
    ensures Responsible(r.listeners, Click) == l
    ensures forall e :: e != Click ==> Responsible(r.listeners, e) == Responsible(b.listeners, e)
    ensures r.(listeners := b.listeners) == b
  {
    b.(listeners := b.listeners.(onClick := l))
  }

  function SetOnDoubleClickListener(b: Button, l: Option<ListenerRef>): (r: Button)
    ensures Responsible(r.listeners, DoubleClick) == l
    ensures forall e :: e != DoubleClick ==> Responsible(r.listeners, e) == Responsible(b.listeners, e)
    ensures r.(listeners := b.listeners) == b
  {
    b.(listeners := b.listeners.(onDoubleClick := l))
  }

  /** The press listener receives press, release and both long-press events. */
  function SetOnPressListener(b: Button, l: Option<ListenerRef>): (r: Button)
    ensures forall e :: e !in {Click, DoubleClick} ==> Responsible(r.listeners, e) == l
    ensures Responsible(r.listeners, Click) == Responsible(b.listeners, Click)
    ensures Responsible(r.listeners, DoubleClick) == Responsible(b.listeners, DoubleClick)
    ensures r.(listeners := b.listeners) == b
  {
    b.(listeners := b.listeners.(onPress := l))
  }

  /**
   `tick()`: one evaluation of the state machine with input sample `active`
   and clock reading `now`. The contract collects what the notifications
   mean for the record; the per-state lemmas below give each branch.
   */
  function Tick(b: Button, active: bool, now: u32): (r: TickResult)
    // a tick never reconfigures the button
    ensures r.button.ticks == b.ticks && r.button.listeners == b.listeners
    // at most one notification, except press and long-press-start together
    ensures |r.events| <= 1 || r.events == [Press, LongPressStart]
    // onPress is sent only while not yet notified, and sets the flag
    ensures Press in r.events ==> active && !b.pressNotified && r.button.pressNotified
    // the flag changes only together with the notification that governs it
    ensures r.button.pressNotified != b.pressNotified ==>
              if r.button.pressNotified then Press in r.events else Release in r.events
    ensures Release in r.events ==>
              r.events == [Release] && b.state == Pressed && r.button.state == Released && !r.button.pressNotified
    ensures LongPressStart in r.events ==>
              active && !b.isLongPress && r.button.isLongPress && IsLongPressed(r.button)
    ensures r.button.isLongPress != b.isLongPress ==>
              if r.button.isLongPress then LongPressStart in r.events else LongPressEnd in r.events
    // click, double-click and long-press-end each end a gesture on their own
    ensures Click in r.events || DoubleClick in r.events || LongPressEnd in r.events ==>
              && |r.events| == 1 && r.button.state == NotPressed
              && r.button.isLongPress == (b.isLongPress && LongPressEnd !in r.events)
    // a click is only recognised between the click and the long-press thresholds
    ensures Click in r.events ==>
              b.state == Released && b.ticks.click < Elapsed(now, b.pressedTime) <= b.ticks.longPress
    ensures DoubleClick in r.events ==> b.state == DoubleClicked && !active
    // a notification without a change of state can only come from a held press
    ensures r.events != [] && r.button.state == b.state ==> b.state == Pressed && active
    // the press timestamp is only ever restamped with the current reading
    ensures r.button.pressedTime != b.pressedTime ==>
              r.button.pressedTime == now && r.button.state in {Pressed, DoubleClicked}
  {
    var timeDelta := Elapsed(now, b.pressedTime);
    match b.state
    case NotPressed =>
      if active then TickResult(b.(state := Pressed, pressedTime := now), [])
      else TickResult(b, [])
    case Pressed =>
      if active then
        var pressFires := timeDelta > b.ticks.debounce && !b.pressNotified;
        var b1 := if pressFires then b.(pressNotified := true) else b;
        var longFires := timeDelta > b.ticks.longPress && !b1.isLongPress;
        var b2 := if longFires then b1.(isLongPress := true) else b1;
        TickResult(b2, (if pressFires then [Press] else []) + (if longFires then [LongPressStart] else []))
      else if timeDelta <= b.ticks.debounce then
        TickResult(b.(state := NotPressed, releasedTime := now), [])
      else
        TickResult(b.(state := Released, pressNotified := false, releasedTime := now), [Release])
    case Released =>
      if active && Elapsed(now, b.releasedTime) > b.ticks.debounce then
        TickResult(b.(pressedTime := now, state := DoubleClicked), [])
      else if timeDelta > b.ticks.longPress then
        TickResult(b.(isLongPress := false, state := NotPressed), [LongPressEnd])
      else if timeDelta > b.ticks.click then
        TickResult(b.(state := NotPressed), [Click])
      else
        TickResult(b, [])
    case DoubleClicked =>
      if !active && timeDelta > b.ticks.debounce then
        TickResult(b.(state := NotPressed), [DoubleClick])
      else
        TickResult(b, [])
  }

  /** No notification occurs twice in the log of one tick. */
  lemma TickLogDistinct(b: Button, active: bool, now: u32)
    ensures forall e :: Count(Tick(b, active, now).events, e) <= 1
  {
    var evs := Tick(b, active, now).events;
    forall e
      ensures Count(evs, e) <= 1
    {
      if |evs| == 2 {
        assert evs == [Press, LongPressStart];
        CountDistinctPair(Press, LongPressStart, e);
      } else if |evs| == 1 {
        assert evs == [evs[0]];
        CountSingleton(evs[0], e);
      }
    }
  }

  /** The callbacks one tick invokes on the registered listeners: each
      notification the tick fires reaches its responsible listener exactly
      once when that registration is set, and no other callback happens. */
  function TickCallbacks(b: Button, active: bool, now: u32): (r: seq<Callback>)
    ensures |r| <= |Tick(b, active, now).events|
    ensures forall c :: c in r ==> c.event in Tick(b, active, now).events
    ensures forall c :: c in r ==> Responsible(b.listeners, c.event) == Some(c.listener)
    ensures forall e :: CallCount(r, e) ==
                          if e in Tick(b, active, now).events && Responsible(b.listeners, e).Some? then 1 else 0
  {
    TickLogDistinct(b, active, now);
    DeliverCount(b.listeners, Tick(b, active, now).events);
    Deliver(b.listeners, Tick(b, active, now).events)
  }

  // ---------------------------------------------------------------------
  // The transition table, one state at a time

  /** NOT_PRESSED: an active input starts a press episode stamped `now`,
      silently; an inactive input changes nothing. */
  lemma IdleTransition(b: Button, active: bool, now: u32)
    requires b.state == NotPressed
    ensures Tick(b, active, now).events == []
    ensures IsPressed(Tick(b, active, now).button) <==> active
    ensures active ==> Tick(b, active, now).button == b.(state := Pressed, pressedTime := now)
    ensures !active ==> Tick(b, active, now).button == b
  {
  }

  /** PRESSED with the input held: press fires iff the debounce time has
      strictly passed and it was not yet sent; long-press-start fires iff the
      long-press time has strictly passed and it was not yet sent. Both flags
      are then set, and nothing else changes. */
  lemma HeldTransition(b: Button, now: u32)
    requires b.state == Pressed
    ensures var r := Tick(b, true, now);
            var elapsed := Elapsed(now, b.pressedTime);
            && (Press in r.events <==> elapsed > b.ticks.debounce && !b.pressNotified)
            && (LongPressStart in r.events <==> elapsed > b.ticks.longPress && !b.isLongPress)
            && (forall e :: e in r.events ==> e in {Press, LongPressStart})
            && r.button.pressNotified == (b.pressNotified || elapsed > b.ticks.debounce)
            && r.button.isLongPress == (b.isLongPress || elapsed > b.ticks.longPress)
            && r.button == b.(pressNotified := r.button.pressNotified, isLongPress := r.button.isLongPress)
  {
  }

  /** PRESSED with the input let go: a release within the debounce time is
      noise and returns silently to NOT_PRESSED; a later one enters RELEASED,
      clears the press flag and fires release. Either way `releasedTime`
      becomes `now`. */
  lemma LetGoTransition(b: Button, now: u32)
    requires b.state == Pressed
    ensures var r := Tick(b, false, now);
            var elapsed := Elapsed(now, b.pressedTime);
            && r.button.releasedTime == now
            && (elapsed <= b.ticks.debounce ==>
                  r.events == [] && r.button == b.(state := NotPressed, releasedTime := now))
            && (elapsed > b.ticks.debounce ==>
                  r.events == [Release] &&
                  r.button == b.(state := Released, pressNotified := false, releasedTime := now))
  {
  }

  /** RELEASED is a priority chain with at most one outcome: a debounced
      re-press enters DOUBLE_CLICKED; otherwise, whatever the input level,
      a press older than the long-press time ends the long press, then one
      older than the click time is a click; otherwise nothing happens. */
  lemma ReleasedTransition(b: Button, active: bool, now: u32)
    requires b.state == Released
    ensures var r := Tick(b, active, now);
            var elapsed := Elapsed(now, b.pressedTime);
            var rePress := active && Elapsed(now, b.releasedTime) > b.ticks.debounce;
            && (rePress ==> r.events == [] && r.button == b.(state := DoubleClicked, pressedTime := now))
            && (!rePress && elapsed > b.ticks.longPress ==>
                  r.events == [LongPressEnd] && r.button == b.(state := NotPressed, isLongPress := false))
            && (!rePress && b.ticks.click < elapsed <= b.ticks.longPress ==>
                  r.events == [Click] && r.button == b.(state := NotPressed))
            && (!rePress && elapsed <= b.ticks.click && elapsed <= b.ticks.longPress ==>
                  r == TickResult(b, []))
  {
  }

  /** DOUBLE_CLICKED: the second release, once debounced, fires double-click
      and returns to NOT_PRESSED; otherwise nothing changes. */
  lemma DoubleClickedTransition(b: Button, active: bool, now: u32)
    requires b.state == DoubleClicked
    ensures var r := Tick(b, active, now);
            if !active && Elapsed(now, b.pressedTime) > b.ticks.debounce
            then r.events == [DoubleClick] && r.button == b.(state := NotPressed)
            else r == TickResult(b, [])
  {
  }

  /** `isPressed()` follows the raw input from the edge on: after a tick
      from NOT_PRESSED or PRESSED the button is pressed exactly when the
      input is active, and after a tick from RELEASED or DOUBLE_CLICKED it is
      never pressed. It is already pressed on the edge tick, before the
      debounced press notification. */
  lemma IsPressedAfterTick(b: Button, active: bool, now: u32)
    ensures var r := Tick(b, active, now);
            IsPressed(r.button) <==> active && (b.state == NotPressed || b.state == Pressed)
    ensures var r := Tick(b, active, now);
            b.state == NotPressed && active ==> IsPressed(r.button) && Press !in r.events
  {
  }

  /** Press and long-press-start can fire in the same tick, when the first
      tick after the press edge comes late. */
  lemma PressAndLongStartTogether()
    ensures var b := Init().(state := Pressed);
            Tick(b, true, 501).events == [Press, LongPressStart]
  {
  }

  /** The long-press comparison is strict: held for exactly the long-press
      time, the press is not long. */
  lemma NoLongPressAtThreshold(b: Button, now: u32)
    requires b.state == Pressed && !b.isLongPress
    requires Elapsed(now, b.pressedTime) == b.ticks.longPress
    ensures LongPressStart !in Tick(b, true, now).events
    ensures !IsLongPressed(Tick(b, true, now).button)
  {
  }

  /** Long-press-end does not need a long-press-start: with sparse ticks it
      can be the only long-press notification of a gesture. */
  lemma LongPressEndWithoutStart()
    ensures var r1 := Tick(Init(), true, 0);
            var r2 := Tick(r1.button, false, 600);
            var r3 := Tick(r2.button, false, 600);
            r1.events + r2.events + r3.events == [Release, LongPressEnd]
  {
  }

  /** In RELEASED the long-press-end branch ignores the input level: a
      re-press that is still within the debounce time of the release ends
      the long press all the same. */
  lemma LongPressEndWhileActive()
    ensures var b := Init().(state := Released, isLongPress := true, releasedTime := 600);
            Tick(b, true, 620) == TickResult(b.(state := NotPressed, isLongPress := false), [LongPressEnd])
  {
  }

  /** The long-press flag is not confined to its episode: a long press
      followed by a quick re-press and release (a double click) leaves the flag
      set, so the next press is reported long from its first tick, and its own
      long-press-start is never sent: a second later only press fires. */
  lemma LongFlagCarriesOver()
    ensures var r1 := Tick(Init(), true, 0);
            var r2 := Tick(r1.button, true, 501);
            var r3 := Tick(r2.button, false, 600);
            var r4 := Tick(r3.button, true, 660);
            var r5 := Tick(r4.button, false, 720);
            var r6 := Tick(r5.button, true, 5000);
            var r7 := Tick(r6.button, true, 6000);
            && r5.events == [DoubleClick] && r5.button.state == NotPressed
            && IsLongPressed(r6.button)
            && r7.events == [Press]
  {
  }

  /** A threshold change takes effect on the very next tick, mid-gesture
      included: raising the click time after the release defers the click. */
  lemma ReconfigureClickMidGesture()
    ensures var b := Init().(state := Released, releasedTime := 60);
            && Tick(b, false, 300).events == [Click]
            && Tick(SetClickTicks(b, 400), false, 300) == TickResult(SetClickTicks(b, 400), [])
  {
  }

  /** The three setters touch different thresholds, so their order does not matter. */
  lemma SettersCommute(b: Button, d: u8, c: u16, l: u16)
    ensures SetDebounceTicks(SetClickTicks(b, c), d) == SetClickTicks(SetDebounceTicks(b, d), c)
    ensures SetDebounceTicks(SetLongPressTicks(b, l), d) == SetLongPressTicks(SetDebounceTicks(b, d), l)
    ensures SetClickTicks(SetLongPressTicks(b, l), c) == SetLongPressTicks(SetClickTicks(b, c), l)
  {
  }

  /** `reset()` undoes every tick and every threshold setter, and is
      idempotent. Listener registrations survive it: a registration made
      before the reset is still in place after it. */
  lemma ResetForgetsHistory(b: Button, active: bool, now: u32, d: u8, c: u16, lp: u16,
                            l: Option<ListenerRef>)
    ensures Reset(Tick(b, active, now).button) == Reset(b)
    ensures Reset(SetDebounceTicks(b, d)) == Reset(b)
    ensures Reset(SetClickTicks(b, c)) == Reset(b)
    ensures Reset(SetLongPressTicks(b, lp)) == Reset(b)
    ensures Reset(Reset(b)) == Reset(b)
    ensures Reset(SetOnClickListener(b, l)) == SetOnClickListener(Reset(b), l)
    ensures Reset(SetOnDoubleClickListener(b, l)) == SetOnDoubleClickListener(Reset(b), l)
    ensures Reset(SetOnPressListener(b, l)) == SetOnPressListener(Reset(b), l)
    ensures l != b.listeners.onClick ==> Reset(SetOnClickListener(b, l)) != Reset(b)
  {
  }
}

=== FILE: clock.dfy ===
/**
 The millisecond clock and the fixed-width integer types of the button's
 fields. `millis()` returns an `unsigned long`, which is 32 bits wide on the
 boards the library targets, so the clock wraps after 2^32 ms (about 49.7
 days). Elapsed time is computed by unsigned subtraction, which is written
 out here explicitly.
 */
module Clock {

  /** Period of the 32-bit millisecond counter. */
  const WORD: int := 0x1_0000_0000

  /** `unsigned long` on the target boards */
  type u32 = x: int | 0 <= x < WORD

  /** `uint16_t` */
  type u16 = x: int | 0 <= x < 0x1_0000

  /** `uint8_t` */
  type u8 = x: int | 0 <= x < 0x100

  /** `now - since` computed in unsigned 32-bit arithmetic: the unique
      32-bit value that, added to `since`, lands on `now` modulo 2^32. */
  function Elapsed(now: u32, since: u32): (d: u32)
    ensures (since + d) % WORD == now
  {
    if since <= now then now - since else now + WORD - since
  }

  /** Unsigned subtraction is wrap-safe: whenever the true duration between
      two readings is shorter than the counter period, the computed elapsed
      time is exactly that duration, even across the wrap. */
  lemma ElapsedMeasuresTrueDuration(since: u32, d: u32)
    ensures Elapsed((since + d) % WORD, since) == d
  {
    if since + d < WORD {
      assert (since + d) % WORD == since + d;
    } else {
      assert (since + d) % WORD == since + d - WORD;
    }
  }

  /** Without a wrap, elapsed time grows with the clock. */
  lemma ElapsedMonotone(since: u32, t1: u32, t2: u32)
    requires since <= t1 <= t2
    ensures Elapsed(t1, since) <= Elapsed(t2, since)
    ensures Elapsed(t2, since) - Elapsed(t1, since) == t2 - t1
  {
  }
}

=== FILE: digital.dfy ===
/**
 `DigitalButton`: a `Button` whose input is active when the pin reads the
 configured level. The pin read (`digitalRead`) becomes the `level`
 parameter of a tick.
 */
module Digital {
  import opened Clock
  import opened Events
  import BaseButton

  /** A digital pin reading. */
  datatype Level = Low | High

  /** The level that reads as pressed: a pull-up input is pulled LOW by the
      press, any other input is driven HIGH. */
  function PressedLevel(inputPullUp: bool): (l: Level)
    ensures l == Low <==> inputPullUp
  {
    if inputPullUp then Low else High
  }

  datatype DigitalButton = DigitalButton(pin: u8, buttonPressed: Level, base: BaseButton.Button)

  datatype DigitalTickResult = DigitalTickResult(button: DigitalButton, events: seq<Event>)

  function GetId(d: DigitalButton): int
  {
    d.pin
  }

  function IsInputLogicInverted(d: DigitalButton): bool
  {
    d.buttonPressed == Low
  }

  /** `isButtonPressed()`: the reading matches the pressed level. */
  predicate IsButtonPressed(d: DigitalButton, level: Level)
  {
    level == d.buttonPressed
  }

  /** The constructor: a fresh state machine, identified by its pin, whose
      logic counts as inverted exactly for a pull-up input. */
  function NewDigitalButton(pin: u8, inputPullUp: bool): (d: DigitalButton)
    ensures d.base == BaseButton.Init()
    ensures GetId(d) == pin
    ensures IsInputLogicInverted(d) <==> inputPullUp
    ensures IsButtonPressed(d, Low) <==> inputPullUp
  {
    DigitalButton(pin, PressedLevel(inputPullUp), BaseButton.Init())
  }

  /** `invertInputLogic()`: every reading now means the opposite, and nothing
      but the pressed level changes. */
  function InvertInputLogic(d: DigitalButton): (r: DigitalButton)
    ensures forall level :: IsButtonPressed(r, level) <==> !IsButtonPressed(d, level)
    ensures IsInputLogicInverted(r) <==> !IsInputLogicInverted(d)
    ensures r.(buttonPressed := d.buttonPressed) == d
  {
    d.(buttonPressed := if d.buttonPressed == Low then High else Low)
  }

  lemma InvertTwiceRestores(d: DigitalButton)
    ensures InvertInputLogic(InvertInputLogic(d)) == d
  {
  }

  /** `tick()` of a digital button: the base machine fed with this button's
      reading of the pin. */
  function DigitalTick(d: DigitalButton, level: Level, now: u32): (r: DigitalTickResult)
    ensures r.button.pin == d.pin && r.button.buttonPressed == d.buttonPressed
    ensures r.button.base == BaseButton.Tick(d.base, IsButtonPressed(d, level), now).button
    ensures r.events == BaseButton.Tick(d.base, IsButtonPressed(d, level), now).events
  {
    var t := BaseButton.Tick(d.base, IsButtonPressed(d, level), now);
    DigitalTickResult(d.(base := t.button), t.events)
  }
}

=== FILE: events.dfy ===
/**
 The six gesture notifications and the facts about event logs that the
 once-per-episode properties are built from. A tick of the state machine
 produces the notifications it fires, in firing order, as a sequence.
 */
module Events {

  /** One `notifyOn*` call of the state machine. */
  datatype Event = Press | Release | Click | DoubleClick | LongPressStart | LongPressEnd

  /** Number of occurrences of `e` in `evs`: what a counting listener observes. */
  function Count(evs: seq<Event>, e: Event): (n: nat)
    ensures n <= |evs|
    ensures n == 0 <==> e !in evs
    decreases |evs|
  {
    if evs == [] then 0
    else (if evs[0] == e then 1 else 0) + Count(evs[1..], e)
  }

  lemma {:induction false} CountAppend(a: seq<Event>, b: seq<Event>, e: Event)
    ensures Count(a + b, e) == Count(a, e) + Count(b, e)
    decreases |a|
  {
    if a == [] {
      assert a + b == b;
    } else {
      assert (a + b)[1..] == a[1..] + b;
      CountAppend(a[1..], b, e);
    }
  }

  lemma CountSingleton(x: Event, e: Event)
    ensures Count([x], e) == if x == e then 1 else 0
  {
    assert [x][1..] == [];
  }

  /** A log of two different notifications holds each at most once. */
  lemma CountDistinctPair(x: Event, y: Event, e: Event)
    requires x != y
    ensures Count([x, y], e) <= 1
  {
    assert [x, y] == [x] + [y];
    CountAppend([x], [y], e);
    CountSingleton(x, e);
    CountSingleton(y, e);
  }

  /**
   A flag that event `on` sets and event `off` clears, where `on` may only
   fire while the flag is clear. `Guarded(flag, evs, on, off)` says the log
   `evs`, started with the flag at `flag`, respects that discipline.
   */
  predicate Guarded(flag: bool, evs: seq<Event>, on: Event, off: Event)
    decreases |evs|
  {
    if evs == [] then true
    else if evs[0] == on then !flag && Guarded(true, evs[1..], on, off)
    else if evs[0] == off then Guarded(false, evs[1..], on, off)
    else Guarded(flag, evs[1..], on, off)
  }

  /** The value of the flag after the log `evs`. */
  function Settle(flag: bool, evs: seq<Event>, on: Event, off: Event): bool
    decreases |evs|
  {
    if evs == [] then flag
    else if evs[0] == on then Settle(true, evs[1..], on, off)
    else if evs[0] == off then Settle(false, evs[1..], on, off)
    else Settle(flag, evs[1..], on, off)
  }

  /** A single notification: `on` needs the flag clear and sets it, `off`
      clears it, any other leaves it alone. */
  lemma GuardedSingleton(flag: bool, e: Event, on: Event, off: Event)
    ensures Guarded(flag, [e], on, off) <==> (e == on ==> !flag)
    ensures Settle(flag, [e], on, off) == if e == on then true else if e == off then false else flag
  {
    assert [e][1..] == [];
  }

  /** A log respects the discipline iff both halves do, the second half
      starting from the flag the first half leaves behind. */
  lemma {:induction false} GuardedAppend(flag: bool, a: seq<Event>, b: seq<Event>, on: Event, off: Event)
    ensures Guarded(flag, a + b, on, off) <==>
            Guarded(flag, a, on, off) && Guarded(Settle(flag, a, on, off), b, on, off)
    ensures Settle(flag, a + b, on, off) == Settle(Settle(flag, a, on, off), b, on, off)
    decreases |a|
  {
    if a == [] {
      assert a + b == b;
    } else {
      assert (a + b)[0] == a[0];
      assert (a + b)[1..] == a[1..] + b;
      var next := if a[0] == on then true else if a[0] == off then false else flag;
      GuardedAppend(next, a[1..], b, on, off);
    }
  }

  /** In a guarded log, `on` occurs at most once more than `off`, and not
      even once more when the flag starts out set. */
  lemma {:induction false} GuardedCount(flag: bool, evs: seq<Event>, on: Event, off: Event)
    requires on != off
    requires Guarded(flag, evs, on, off)
    ensures Count(evs, on) <= Count(evs, off) + (if flag then 0 else 1)
    decreases |evs|
  {
    if evs != [] {
      if evs[0] == on {
        GuardedCount(true, evs[1..], on, off);
      } else if evs[0] == off {
        GuardedCount(false, evs[1..], on, off);
      } else {
        GuardedCount(flag, evs[1..], on, off);
      }
    }
  }

  /** Once the flag is set, `on` cannot occur again before an `off`. */
  lemma {:induction false} SetFlagBlocksOn(evs: seq<Event>, on: Event, off: Event, m: nat)
    requires on != off
    requires Guarded(true, evs, on, off)
    requires m < |evs| && evs[m] == on
    ensures exists k :: 0 <= k < m && evs[k] == off
    decreases m
  {
    assert evs[0] != on;
    if evs[0] != off {
      SetFlagBlocksOn(evs[1..], on, off, m - 1);
      var k :| 0 <= k < m - 1 && evs[1..][k] == off;
      assert evs[k + 1] == off;
    }
  }

  /** Between any two occurrences of `on` in a guarded log there is an `off`. */
  lemma GuardedSeparates(flag: bool, evs: seq<Event>, on: Event, off: Event, i: nat, j: nat)
    requires on != off
    requires Guarded(flag, evs, on, off)
    requires i < j < |evs| && evs[i] == on && evs[j] == on
    ensures exists k :: i < k < j && evs[k] == off
  {
    assert evs == evs[..i] + evs[i..];
    GuardedAppend(flag, evs[..i], evs[i..], on, off);
    var tail := evs[i..];
    assert tail[0] == on;
    assert Guarded(true, tail[1..], on, off);
    assert tail[1..][j - i - 1] == on;
    SetFlagBlocksOn(tail[1..], on, off, j - i - 1);
    var k :| 0 <= k < j - i - 1 && tail[1..][k] == off;
    assert evs[i + 1 + k] == off;
  }
}

=== FILE: listeners.dfy ===
/**
 Listener registration and dispatch. A registered listener is a non-owning
 reference, modelled by an identity number; an unset (null) registration
 is `None`. Delivering a notification to a listener becomes a `Callback`
 record naming the listener and the callback method invoked on it.
 */
module Listeners {
  import opened Events

  datatype Option<T> = None | Some(value: T)

  /** Identity of a listener object; one object may serve several slots. */
  type ListenerRef = nat

  /** The three listener registrations of a button: click, double-click, and the
      press listener, which also receives release and both long-press events. */
  datatype Slots = Slots(onClick: Option<ListenerRef>,
                         onDoubleClick: Option<ListenerRef>,
                         onPress: Option<ListenerRef>)

  /** All registrations start out null. */
  const NoListeners := Slots(None, None, None)

  /** The invocation of callback `event` on listener `listener`. */
  datatype Callback = Callback(listener: ListenerRef, event: Event)

  /** The registration responsible for each kind of notification. */
  function Responsible(slots: Slots, e: Event): Option<ListenerRef>
  {
    match e
    case Click => slots.onClick
    case DoubleClick => slots.onDoubleClick
    case _ => slots.onPress
  }

  /** One `notifyOn*` helper: calls its own listener if one is set, and is a
      no-op otherwise. */
  function Notify(slots: Slots, e: Event): (r: seq<Callback>)
    ensures |r| <= 1
    ensures r == [] <==> Responsible(slots, e).None?
    ensures forall c :: c in r ==> c.event == e && Responsible(slots, e) == Some(c.listener)
  {
    match Responsible(slots, e)
    case None => []
    case Some(l) => [Callback(l, e)]
  }

  /** Number of callbacks in `cs` that deliver notification `e`: what a
      listener counting that callback observes. */
  function CallCount(cs: seq<Callback>, e: Event): (n: nat)
    ensures n <= |cs|
    ensures n == 0 <==> forall c :: c in cs ==> c.event != e
    decreases |cs|
  {
    if cs == [] then 0
    else (if cs[0].event == e then 1 else 0) + CallCount(cs[1..], e)
  }

  lemma {:induction false} CallCountAppend(a: seq<Callback>, b: seq<Callback>)
    ensures forall e :: CallCount(a + b, e) == CallCount(a, e) + CallCount(b, e)
    decreases |a|
  {
    if a == [] {
      assert a + b == b;
    } else {
      assert (a + b)[1..] == a[1..] + b;
      CallCountAppend(a[1..], b);
    }
  }

  /** A notify helper delivers `x` once if its registration is set, and
      delivers nothing else. */
  lemma NotifyCount(slots: Slots, x: Event)
    ensures forall e :: CallCount(Notify(slots, x), e) ==
                          if e == x && Responsible(slots, e).Some? then 1 else 0
  {
    var r := Notify(slots, x);
    if r != [] {
      assert r[1..] == [];
    }
  }

  /** All callbacks caused by a log of notifications, in order. */
  function Deliver(slots: Slots, evs: seq<Event>): (r: seq<Callback>)
    ensures |r| <= |evs|
    ensures forall c :: c in r ==> c.event in evs && Responsible(slots, c.event) == Some(c.listener)
    decreases |evs|
  {
    if evs == [] then [] else Notify(slots, evs[0]) + Deliver(slots, evs[1..])
  }

  /** Each notification of a log reaches its responsible listener exactly as
      often as it occurs in the log when that registration is set, and
      never when it is null. */
  lemma {:induction false} DeliverCount(slots: Slots, evs: seq<Event>)
    ensures forall e :: CallCount(Deliver(slots, evs), e) ==
                          if Responsible(slots, e).Some? then Count(evs, e) else 0
    decreases |evs|
  {
    if evs != [] {
      DeliverCount(slots, evs[1..]);
      CallCountAppend(Notify(slots, evs[0]), Deliver(slots, evs[1..]));
      NotifyCount(slots, evs[0]);
    }
  }

  /** Dispatch keeps the order of the log: the callbacks of a log split in
      two are those of its first part followed by those of its second, and
      a single notification goes through its own notify helper. */
  lemma {:induction false} DeliverAppend(slots: Slots, a: seq<Event>, b: seq<Event>)
    ensures Deliver(slots, a + b) == Deliver(slots, a) + Deliver(slots, b)
    ensures |a| == 1 ==> Deliver(slots, a) == Notify(slots, a[0])
    decreases |a|
  {
    if a == [] {
      assert a + b == b;
    } else {
      assert (a + b)[0] == a[0];
      assert (a + b)[1..] == a[1..] + b;
      DeliverAppend(slots, a[1..], b);
      if |a| == 1 {
        assert a[1..] == [];
      }
    }
  }

  /** With every listener registered nothing is dropped: the callbacks are
      exactly the notifications, one for one and in order. */
  lemma {:induction false} DeliverAllRegistered(slots: Slots, evs: seq<Event>)
    requires slots.onClick.Some? && slots.onDoubleClick.Some? && slots.onPress.Some?
    ensures Deliver(slots, evs) ==
              seq(|evs|, i requires 0 <= i < |evs| => Callback(Responsible(slots, evs[i]).value, evs[i]))
    decreases |evs|
  {
    if evs != [] {
      DeliverAllRegistered(slots, evs[1..]);
    }
  }

  /** With no listener registered every notification is silently dropped. */
  lemma {:induction false} DeliverNoneRegistered(evs: seq<Event>)
    ensures Deliver(NoListeners, evs) == []
    decreases |evs|
  {
    if evs != [] {
      DeliverNoneRegistered(evs[1..]);
    }
  }
}

=== FILE: object_button.dfy ===
/**
 `ObjectButton`: the older single-class revision of the library, with the
 digital pin compare written into `tick()` itself. Its fields are those of
 `Button` plus the pin and the pressed level; `AsButton` forgets those two,
 and the lemmas below show that the revision behaves exactly as the base
 state machine fed with the digital predicate.
 */
module ObjectButtonRevision {
  import opened Clock
  import opened Events
  import opened Listeners
  import opened Digital
  import B = BaseButton
  import R = TickRuns

  datatype ObjectButton = ObjectButton(pin: u8,
                                       buttonPressed: Level,
                                       state: B.State,
                                       isLongPress: bool,
                                       pressNotified: bool,
                                       pressedTime: u32,
                                       releasedTime: u32,
                                       ticks: B.Thresholds,
                                       listeners: Slots)

  datatype ObjectTickResult = ObjectTickResult(button: ObjectButton, events: seq<Event>)

  /** The state-machine part of the record. */
  function AsButton(ob: ObjectButton): B.Button
  {
    B.Button(ob.state, ob.isLongPress, ob.pressNotified, ob.pressedTime, ob.releasedTime,
             ob.ticks, ob.listeners)
  }

  function GetId(ob: ObjectButton): int
  {
    ob.pin
  }

  predicate IsPressed(ob: ObjectButton)
  {
    ob.state == B.Pressed
  }

  predicate IsLongPressed(ob: ObjectButton)
  {
    ob.state == B.Pressed && ob.isLongPress
  }

  /** The constructor: `activeLow` selects LOW as the pressed level, otherwise
      HIGH; the state machine starts exactly as a fresh `Button`; the ID is
      the pin. */
  function NewObjectButton(pin: u8, activeLow: bool): (ob: ObjectButton)
    ensures AsButton(ob) == B.Init()
    ensures GetId(ob) == pin
    ensures ob.buttonPressed == Low <==> activeLow
    ensures !IsPressed(ob) && !IsLongPressed(ob)
  {
    ObjectButton(pin, if activeLow then Low else High, B.NotPressed, false, false, 0, 0,
                 B.DefaultThresholds, NoListeners)
  }

  /** `reset()`: the state machine part is reset as in `Button`; the pin and
      the pressed level are kept. */
  function Reset(ob: ObjectButton): (r: ObjectButton)
    ensures AsButton(r) == B.Reset(AsButton(ob))
    ensures r.pin == ob.pin && r.buttonPressed == ob.buttonPressed
    ensures !IsLongPressed(r)
  {
    ob.(state := B.NotPressed, isLongPress := false, pressNotified := false,
        pressedTime := 0, releasedTime := 0, ticks := B.DefaultThresholds)
  }

  function SetDebounceTicks(ob: ObjectButton, t: u8): (r: ObjectButton)
    ensures AsButton(r) == B.SetDebounceTicks(AsButton(ob), t)
    ensures r.pin == ob.pin && r.buttonPressed == ob.buttonPressed
  {
    ob.(ticks := ob.ticks.(debounce := t))
  }

  function SetClickTicks(ob: ObjectButton, t: u16): (r: ObjectButton)
    ensures AsButton(r) == B.SetClickTicks(AsButton(ob), t)
    ensures r.pin == ob.pin && r.buttonPressed == ob.buttonPressed
  {
    ob.(ticks := ob.ticks.(click := t))
  }

  function SetLongPressTicks(ob: ObjectButton, t: u16): (r: ObjectButton)
    ensures AsButton(r) == B.SetLongPressTicks(AsButton(ob), t)
    ensures r.pin == ob.pin && r.buttonPressed == ob.buttonPressed
  {
    ob.(ticks := ob.ticks.(longPress := t))
  }

  function SetOnClickListener(ob: ObjectButton, l: Option<ListenerRef>): (r: ObjectButton)
    ensures AsButton(r) == B.SetOnClickListener(AsButton(ob), l)
    ensures r.pin == ob.pin && r.buttonPressed == ob.buttonPressed
  {
    ob.(listeners := ob.listeners.(onClick := l))
  }

  function SetOnDoubleClickListener(ob: ObjectButton, l: Option<ListenerRef>): (r: ObjectButton)
    ensures AsButton(r) == B.SetOnDoubleClickListener(AsButton(ob), l)
    ensures r.pin == ob.pin && r.buttonPressed == ob.buttonPressed
  {
    ob.(listeners := ob.listeners.(onDoubleClick := l))
  }

  function SetOnPressListener(ob: ObjectButton, l: Option<ListenerRef>): (r: ObjectButton)
    ensures AsButton(r) == B.SetOnPressListener(AsButton(ob), l)
    ensures r.pin == ob.pin && r.buttonPressed == ob.buttonPressed
  {
    ob.(listeners := ob.listeners.(onPress := l))
  }

  /** `tick()` of this revision, with the pin reading `buttonLevel` compared
      in place. */
  function Tick(ob: ObjectButton, buttonLevel: Level, now: u32): (r: ObjectTickResult)
    ensures r.button.pin == ob.pin && r.button.buttonPressed == ob.buttonPressed
  {
    var timeDelta := Elapsed(now, ob.pressedTime);
    match ob.state
    case NotPressed =>
      if buttonLevel == ob.buttonPressed then
        ObjectTickResult(ob.(state := B.Pressed, pressedTime := now), [])
      else ObjectTickResult(ob, [])
    case Pressed =>
      if buttonLevel == ob.buttonPressed then
        var pressFires := timeDelta > ob.ticks.debounce && !ob.pressNotified;
        var ob1 := if pressFires then ob.(pressNotified := true) else ob;
        var longFires := timeDelta > ob.ticks.longPress && !ob1.isLongPress;
        var ob2 := if longFires then ob1.(isLongPress := true) else ob1;
        ObjectTickResult(ob2, (if pressFires then [Press] else []) + (if longFires then [LongPressStart] else []))
      else if timeDelta <= ob.ticks.debounce then
        ObjectTickResult(ob.(state := B.NotPressed, releasedTime := now), [])
      else
        ObjectTickResult(ob.(state := B.Released, pressNotified := false, releasedTime := now), [Release])
    case Released =>
      if buttonLevel == ob.buttonPressed && Elapsed(now, ob.releasedTime) > ob.ticks.debounce then
        ObjectTickResult(ob.(pressedTime := now, state := B.DoubleClicked), [])
      else if timeDelta > ob.ticks.longPress then
        ObjectTickResult(ob.(isLongPress := false, state := B.NotPressed), [LongPressEnd])
      else if timeDelta > ob.ticks.click then
        ObjectTickResult(ob.(state := B.NotPressed), [Click])
      else
        ObjectTickResult(ob, [])
    case DoubleClicked =>
      if buttonLevel != ob.buttonPressed && timeDelta > ob.ticks.debounce then
        ObjectTickResult(ob.(state := B.NotPressed), [DoubleClick])
      else
        ObjectTickResult(ob, [])
  }

  /** The two revisions agree: one tick of `ObjectButton` is one tick of
      `Button` whose input predicate is the digital compare, and the pin and
      pressed level are never touched. */
  lemma TickMatchesBase(ob: ObjectButton, level: Level, now: u32)
    ensures var r := Tick(ob, level, now);
            var t := B.Tick(AsButton(ob), level == ob.buttonPressed, now);
            && AsButton(r.button) == t.button
            && r.events == t.events
            && r.button.pin == ob.pin && r.button.buttonPressed == ob.buttonPressed
  {
  }

  /** The ID of this revision is its pin, from construction on: ticks and
      `reset()` keep it. */
  lemma IdIsPin(ob: ObjectButton, pin: u8, activeLow: bool, level: Level, now: u32)
    ensures GetId(NewObjectButton(pin, activeLow)) == pin
    ensures GetId(Tick(ob, level, now).button) == GetId(ob) == ob.pin
    ensures GetId(Reset(ob)) == GetId(ob)
  {
  }

  /** The callbacks one tick of this revision invokes: its notify helpers
      dispatch exactly as those of `Button`, so each fired notification
      reaches its set registration once and nothing else is called. */
  function TickCallbacks(ob: ObjectButton, level: Level, now: u32): (r: seq<Callback>)
    ensures r == B.TickCallbacks(AsButton(ob), level == ob.buttonPressed, now)
    ensures forall c :: c in r ==> c.event in Tick(ob, level, now).events
    ensures forall c :: c in r ==> Responsible(ob.listeners, c.event) == Some(c.listener)
    ensures forall e :: CallCount(r, e) ==
                          if e in Tick(ob, level, now).events && Responsible(ob.listeners, e).Some? then 1 else 0
  {
    TickMatchesBase(ob, level, now);
    Deliver(ob.listeners, Tick(ob, level, now).events)
  }

  /** The older revision and `DigitalButton` agree: built for the same pin
      and pressed level, one tick on the same pin reading fires the same
      notifications and leaves the same state machine behind. */
  lemma DigitalMatchesObjectButton(ob: ObjectButton, d: DigitalButton, level: Level, now: u32)
    requires d.pin == ob.pin && d.buttonPressed == ob.buttonPressed && d.base == AsButton(ob)
    ensures var r := Tick(ob, level, now);
            var t := DigitalTick(d, level, now);
            && r.events == t.events
            && AsButton(r.button) == t.button.base
            && t.button.pin == r.button.pin && t.button.buttonPressed == r.button.buttonPressed
  {
    TickMatchesBase(ob, level, now);
  }

  /** The constructors agree: an active-low `ObjectButton` is a pull-up
      `DigitalButton`. */
  lemma ConstructorsMatch(pin: u8, activeLow: bool)
    ensures var ob := NewObjectButton(pin, activeLow);
            var d := NewDigitalButton(pin, activeLow);
            d.pin == ob.pin && d.buttonPressed == ob.buttonPressed && d.base == AsButton(ob)
  {
  }

  /** The queries of both revisions read the same fields the same way. */
  lemma QueriesMatchBase(ob: ObjectButton)
    ensures IsPressed(ob) <==> B.IsPressed(AsButton(ob))
    ensures IsLongPressed(ob) <==> B.IsLongPressed(AsButton(ob))
  {
  }

  /** One `tick()` call of this revision: the pin level read and the clock. */
  datatype LevelSample = LevelSample(level: Level, now: u32)

  function Run(ob: ObjectButton, samples: seq<LevelSample>): (r: ObjectTickResult)
    ensures r.button.pin == ob.pin && r.button.buttonPressed == ob.buttonPressed
    decreases |samples|
  {
    if samples == [] then ObjectTickResult(ob, [])
    else
      var first := Tick(ob, samples[0].level, samples[0].now);
      var rest := Run(first.button, samples[1..]);
      ObjectTickResult(rest.button, first.events + rest.events)
  }

  lemma RunCons(ob: ObjectButton, s: LevelSample, rest: seq<LevelSample>)
    ensures var first := Tick(ob, s.level, s.now);
            Run(ob, [s] + rest) == ObjectTickResult(Run(first.button, rest).button, first.events + Run(first.button, rest).events)
  {
    assert ([s] + rest)[0] == s;
    assert ([s] + rest)[1..] == rest;
  }

  /** The pin readings as the base machine sees them. */
  function AsSamples(buttonPressed: Level, samples: seq<LevelSample>): (s: seq<R.Sample>)
    ensures |s| == |samples|
    ensures forall i :: 0 <= i < |s| ==>
              s[i].now == samples[i].now && (s[i].active <==> samples[i].level == buttonPressed)
  {
    seq(|samples|, i requires 0 <= i < |samples| => R.Sample(samples[i].level == buttonPressed, samples[i].now))
  }

  /** Over any sequence of ticks, the two revisions produce the same state
      and the same notifications. */
  lemma {:induction false} RunMatchesBase(ob: ObjectButton, samples: seq<LevelSample>)
    ensures var r := Run(ob, samples);
            var t := R.Run(AsButton(ob), AsSamples(ob.buttonPressed, samples));
            AsButton(r.button) == t.button && r.events == t.events
    decreases |samples|
  {
    if samples != [] {
      var s := samples[0];
      var first := Tick(ob, s.level, s.now);
      TickMatchesBase(ob, s.level, s.now);
      RunMatchesBase(first.button, samples[1..]);
      assert AsSamples(ob.buttonPressed, samples)[1..] == AsSamples(ob.buttonPressed, samples[1..]);
    }
  }
}

=== FILE: runs.dfy ===
/**
 Finite sequences of ticks, as the owner's polling loop performs them, and
 the properties that only show over several ticks: press and long-press
 notifications are not repeated within an episode, the press flag is only
 ever set while a press is held, and repeated ticks at one clock reading
 settle at once.
 */
module TickRuns {
  import opened Clock
  import opened Events
  import opened BaseButton

  /** One call of `tick()`: the input sample and the clock reading it sees. */
  datatype Sample = Sample(active: bool, now: u32)

  /** The record after ticking `b` once per sample, and every notification
      fired, in order. */
  function Run(b: Button, samples: seq<Sample>): (r: TickResult)
    ensures r.button.ticks == b.ticks && r.button.listeners == b.listeners
    ensures |r.events| <= 2 * |samples|
    decreases |samples|
  {
    if samples == [] then TickResult(b, [])
    else
      var first := Tick(b, samples[0].active, samples[0].now);
      var rest := Run(first.button, samples[1..]);
      TickResult(rest.button, first.events + rest.events)
  }

  lemma RunCons(b: Button, s: Sample, rest: seq<Sample>)
    ensures var first := Tick(b, s.active, s.now);
            Run(b, [s] + rest) == TickResult(Run(first.button, rest).button, first.events + Run(first.button, rest).events)
  {
    assert ([s] + rest)[0] == s;
    assert ([s] + rest)[1..] == rest;
  }

  /** Ticking through two sample sequences in turn is ticking through their
      concatenation. */
  lemma {:induction false} RunAppend(b: Button, s1: seq<Sample>, s2: seq<Sample>)
    ensures var mid := Run(b, s1);
            Run(b, s1 + s2) == TickResult(Run(mid.button, s2).button, mid.events + Run(mid.button, s2).events)
    decreases |s1|
  {
    if s1 == [] {
      assert s1 + s2 == s2;
    } else {
      var first := Tick(b, s1[0].active, s1[0].now);
      assert (s1 + s2)[0] == s1[0];
      assert (s1 + s2)[1..] == s1[1..] + s2;
      RunAppend(first.button, s1[1..], s2);
      var mid := Run(first.button, s1[1..]);
      var last := Run(mid.button, s2);
      assert first.events + (mid.events + last.events) == (first.events + mid.events) + last.events;
    }
  }

  // ---------------------------------------------------------------------
  // Press and long-press notifications are not repeated within an episode

  /** One tick respects the press flag discipline: onPress only while the
      flag is clear, onRelease clearing it, nothing else touching it. */
  lemma TickGuardsPress(b: Button, active: bool, now: u32)
    ensures var r := Tick(b, active, now);
            && Guarded(b.pressNotified, r.events, Press, Release)
            && Settle(b.pressNotified, r.events, Press, Release) == r.button.pressNotified
  {
    var r := Tick(b, active, now);
    if |r.events| == 2 {
      assert r.events == [Press] + [LongPressStart];
      GuardedSingleton(b.pressNotified, Press, Press, Release);
      GuardedSingleton(true, LongPressStart, Press, Release);
      GuardedAppend(b.pressNotified, [Press], [LongPressStart], Press, Release);
    } else if |r.events| == 1 {
      assert r.events == [r.events[0]];
      GuardedSingleton(b.pressNotified, r.events[0], Press, Release);
    }
  }

  lemma TickGuardsLongPress(b: Button, active: bool, now: u32)
    ensures var r := Tick(b, active, now);
            && Guarded(b.isLongPress, r.events, LongPressStart, LongPressEnd)
            && Settle(b.isLongPress, r.events, LongPressStart, LongPressEnd) == r.button.isLongPress
  {
    var r := Tick(b, active, now);
    if |r.events| == 2 {
      assert r.events == [Press] + [LongPressStart];
      GuardedSingleton(b.isLongPress, Press, LongPressStart, LongPressEnd);
      GuardedSingleton(b.isLongPress, LongPressStart, LongPressStart, LongPressEnd);
      GuardedAppend(b.isLongPress, [Press], [LongPressStart], LongPressStart, LongPressEnd);
    } else if |r.events| == 1 {
      assert r.events == [r.events[0]];
      GuardedSingleton(b.isLongPress, r.events[0], LongPressStart, LongPressEnd);
    }
  }

  lemma {:induction false} RunGuardsPress(b: Button, samples: seq<Sample>)
    ensures var r := Run(b, samples);
            && Guarded(b.pressNotified, r.events, Press, Release)
            && Settle(b.pressNotified, r.events, Press, Release) == r.button.pressNotified
    decreases |samples|
  {
    if samples != [] {
      var first := Tick(b, samples[0].active, samples[0].now);
      TickGuardsPress(b, samples[0].active, samples[0].now);
      RunGuardsPress(first.button, samples[1..]);
      GuardedAppend(b.pressNotified, first.events, Run(first.button, samples[1..]).events, Press, Release);
    }
  }

  lemma {:induction false} RunGuardsLongPress(b: Button, samples: seq<Sample>)
    ensures var r := Run(b, samples);
            && Guarded(b.isLongPress, r.events, LongPressStart, LongPressEnd)
            && Settle(b.isLongPress, r.events, LongPressStart, LongPressEnd) == r.button.isLongPress
    decreases |samples|
  {
    if samples != [] {
      var first := Tick(b, samples[0].active, samples[0].now);
      TickGuardsLongPress(b, samples[0].active, samples[0].now);
      RunGuardsLongPress(first.button, samples[1..]);
      GuardedAppend(b.isLongPress, first.events, Run(first.button, samples[1..]).events, LongPressStart, LongPressEnd);
    }
  }

  /** `onPress` fires at most once per episode, over any tick sequence,
      clock behaviour and configuration: two presses always have a release
      between them, so there is at most one press more than releases. */
  lemma PressOncePerEpisode(b: Button, samples: seq<Sample>)
    ensures var evs := Run(b, samples).events;
            && Count(evs, Press) <= Count(evs, Release) + 1
            && (Release !in evs ==> Count(evs, Press) <= 1)
            && (b.pressNotified && Release !in evs ==> Press !in evs)
            && forall i, j :: 0 <= i < j < |evs| && evs[i] == Press && evs[j] == Press ==>
                 exists k :: i < k < j && evs[k] == Release
  {
    var evs := Run(b, samples).events;
    RunGuardsPress(b, samples);
    GuardedCount(b.pressNotified, evs, Press, Release);
    forall i, j | 0 <= i < j < |evs| && evs[i] == Press && evs[j] == Press
      ensures exists k :: i < k < j && evs[k] == Release
    {
      GuardedSeparates(b.pressNotified, evs, Press, Release, i, j);
    }
  }

  /** `onLongPressStart` fires at most once per long press: two of them
      always have a long-press-end between them. */
  lemma LongPressStartOncePerEpisode(b: Button, samples: seq<Sample>)
    ensures var evs := Run(b, samples).events;
            && Count(evs, LongPressStart) <= Count(evs, LongPressEnd) + 1
            && (LongPressEnd !in evs ==> Count(evs, LongPressStart) <= 1)
            && (b.isLongPress && LongPressEnd !in evs ==> LongPressStart !in evs)
            && forall i, j :: 0 <= i < j < |evs| && evs[i] == LongPressStart && evs[j] == LongPressStart ==>
                 exists k :: i < k < j && evs[k] == LongPressEnd
  {
    var evs := Run(b, samples).events;
    RunGuardsLongPress(b, samples);
    GuardedCount(b.isLongPress, evs, LongPressStart, LongPressEnd);
    forall i, j | 0 <= i < j < |evs| && evs[i] == LongPressStart && evs[j] == LongPressStart
      ensures exists k :: i < k < j && evs[k] == LongPressEnd
    {
      GuardedSeparates(b.isLongPress, evs, LongPressStart, LongPressEnd, i, j);
    }
  }

  // ---------------------------------------------------------------------
  // The press flag is only set while a press is held

  /** Clock readings that never go backwards and never wrap, starting at or
      after `last`. */
  ghost predicate Monotone(last: u32, samples: seq<Sample>)
  {
    && (|samples| > 0 ==> last <= samples[0].now)
    && forall i :: 0 < i < |samples| ==> samples[i - 1].now <= samples[i].now
  }

  /** The clock reading of the last tick, or `last` when there is none. */
  function LastReading(last: u32, samples: seq<Sample>): u32
  {
    if samples == [] then last else samples[|samples| - 1].now
  }

  /** With the last clock reading `last`: the press edge lies in the past,
      and a notified press is a held press older than the debounce time. */
  ghost predicate NotifiedInv(b: Button, last: u32)
  {
    && b.pressedTime <= last
    && (b.pressNotified ==> b.state == Pressed && last - b.pressedTime > b.ticks.debounce)
  }

  lemma TickKeepsNotifiedInv(b: Button, last: u32, active: bool, now: u32)
    requires NotifiedInv(b, last)
    requires last <= now
    ensures NotifiedInv(Tick(b, active, now).button, now)
  {
    ElapsedMonotone(b.pressedTime, last, now);
  }

  /** With a monotone, non-wrapping clock and no reconfiguration between
      ticks, `pressNotified` is only ever set in PRESSED. */
  lemma {:induction false} NotifiedOnlyWhilePressed(b: Button, last: u32, samples: seq<Sample>)
    requires NotifiedInv(b, last)
    requires Monotone(last, samples)
    ensures NotifiedInv(Run(b, samples).button, LastReading(last, samples))
    ensures Run(b, samples).button.pressNotified ==> Run(b, samples).button.state == Pressed
    decreases |samples|
  {
    if samples != [] {
      var s := samples[0];
      TickKeepsNotifiedInv(b, last, s.active, s.now);
      var rest := samples[1..];
      assert Monotone(s.now, rest) by {
        forall i | 0 < i < |rest|
          ensures rest[i - 1].now <= rest[i].now
        {
          assert rest[i - 1] == samples[i] && rest[i] == samples[i + 1];
        }
      }
      NotifiedOnlyWhilePressed(Tick(b, s.active, s.now).button, s.now, rest);
      assert LastReading(s.now, rest) == LastReading(last, samples);
    }
  }

  /** A freshly constructed or reset button satisfies the invariant from
      any clock reading on. */
  lemma ResetEstablishesNotifiedInv(b: Button, last: u32)
    ensures NotifiedInv(Reset(b), last)
    ensures NotifiedInv(Init(), last)
  {
  }

  /** Without the clock assumption the flag can outlive its episode: raising
      the debounce time after the press was notified turns the release into
      noise, leaving NOT_PRESSED with the flag still set, and the next
      episode then never sends `onPress` (only its long-press-start). */
  lemma RaisedDebounceStrandsPressFlag()
    ensures var r1 := Run(Init(), [Sample(true, 0), Sample(true, 60)]);
            var b2 := SetDebounceTicks(r1.button, 100);
            var r3 := Run(b2, [Sample(false, 80), Sample(true, 1000), Sample(true, 2000)]);
            && r1.events == [Press]
            && Press !in r3.events && r3.events == [LongPressStart]
            && IsPressed(r3.button) && r3.button.pressNotified
  {
    RunCons(Init(), Sample(true, 0), [Sample(true, 60)]);
    RunCons(Tick(Init(), true, 0).button, Sample(true, 60), []);
    var r1 := Run(Init(), [Sample(true, 0), Sample(true, 60)]);
    var b2 := SetDebounceTicks(r1.button, 100);
    var c1 := Tick(b2, false, 80).button;
    var c2 := Tick(c1, true, 1000).button;
    RunCons(b2, Sample(false, 80), [Sample(true, 1000), Sample(true, 2000)]);
    RunCons(c1, Sample(true, 1000), [Sample(true, 2000)]);
    RunCons(c2, Sample(true, 2000), []);
  }

  // ---------------------------------------------------------------------
  // Ticking repeatedly at one clock reading

  function Repeat(active: bool, now: u32, n: nat): (s: seq<Sample>)
    ensures |s| == n
  {
    seq(n, _ => Sample(active, now))
  }

  ghost predicate Stable(b: Button, active: bool, now: u32)
  {
    Tick(b, active, now) == TickResult(b, [])
  }

  lemma {:induction false} StableRunsQuiet(b: Button, active: bool, now: u32, n: nat)
    requires Stable(b, active, now)
    ensures Run(b, Repeat(active, now, n)) == TickResult(b, [])
    decreases n
  {
    if n > 0 {
      assert Repeat(active, now, n) == [Sample(active, now)] + Repeat(active, now, n - 1);
      RunCons(b, Sample(active, now), Repeat(active, now, n - 1));
      StableRunsQuiet(b, active, now, n - 1);
    }
  }

  /** With unchanged input and clock, the machine is at rest after two
      ticks, and the second tick fires something only after a release. */
  lemma SettlesWithinTwoTicks(b: Button, active: bool, now: u32)
    ensures var r1 := Tick(b, active, now);
            var r2 := Tick(r1.button, active, now);
            && Stable(r2.button, active, now)
            && (r2.events == [] || (r1.events == [Release] && |r2.events| == 1 && r2.events[0] != Release))
  {
    var r1 := Tick(b, active, now);
    match b.state
    case NotPressed =>
    case Pressed =>
      if active {
        assert Stable(r1.button, active, now);
      }
    case Released =>
    case DoubleClicked =>
  }

  /** The log of `n` ticks at one sample is the log of the first two. */
  lemma RepeatedLog(b: Button, active: bool, now: u32, n: nat)
    ensures var r1 := Tick(b, active, now);
            var r2 := Tick(r1.button, active, now);
            Run(b, Repeat(active, now, n)).events ==
              if n == 0 then [] else if n == 1 then r1.events else r1.events + r2.events
  {
    var s := Sample(active, now);
    var r1 := Tick(b, active, now);
    var r2 := Tick(r1.button, active, now);
    SettlesWithinTwoTicks(b, active, now);
    if n == 1 {
      assert Repeat(active, now, 1) == [s] + [];
      RunCons(b, s, []);
    } else if n >= 2 {
      assert Repeat(active, now, n) == [s] + ([s] + Repeat(active, now, n - 2));
      RunCons(b, s, [s] + Repeat(active, now, n - 2));
      RunCons(r1.button, s, Repeat(active, now, n - 2));
      StableRunsQuiet(r2.button, active, now, n - 2);
    }
  }

  /** Idempotence: any number of ticks with unchanged input and clock
      reading send no notification twice. */
  lemma RepeatedTicksDoNotRepeat(b: Button, active: bool, now: u32, n: nat)
    ensures forall e :: Count(Run(b, Repeat(active, now, n)).events, e) <= 1
  {
    var r1 := Tick(b, active, now);
    var r2 := Tick(r1.button, active, now);
    SettlesWithinTwoTicks(b, active, now);
    RepeatedLog(b, active, now, n);
    var evs := Run(b, Repeat(active, now, n)).events;
    forall e
      ensures Count(evs, e) <= 1
    {
      if n >= 2 && r2.events != [] {
        assert evs == [Release, r2.events[0]];
        CountDistinctPair(Release, r2.events[0], e);
      } else if n >= 1 {
        assert evs == r1.events;
        TickLogDistinct(b, active, now);
      }
    }
  }
}

=== FILE: scenarios.dfy ===
/**
 The library's unit-test scenarios and further traces of `tick()`, replayed
 on the model. Each trace lists the `tick()` calls of a scenario, with the
 input (or the pin level) and the clock reading each one sees; the lemmas
 state the notification log, and the queries, at the end of each trace.
 */
module Scenarios {
  import opened Clock
  import opened Events
  import opened Listeners
  import opened BaseButton
  import opened TickRuns
  import opened Digital
  import opened Analog
  import O = ObjectButtonRevision

  /** A button reports its pin as its ID; a fresh or reset button is not
      long pressed. */
  lemma SanityChecks(ob: O.ObjectButton)
    ensures O.GetId(O.NewObjectButton(10, true)) == 10
    ensures O.GetId(O.NewObjectButton(1, false)) == 1
    ensures !O.IsLongPressed(O.NewObjectButton(10, true))
    ensures !O.IsLongPressed(O.Reset(ob))
    ensures Digital.GetId(NewDigitalButton(10, true)) == 10
    ensures IsInputLogicInverted(NewDigitalButton(10, true))
    ensures Analog.GetId(NewAnalogButton(7, 10, 1000, true)) == 7
  {
  }

  /** An analog button as the library's tests build it (ID 10 on pin 10,
      target 1000) held at one reading from its edge to a tick after the
      debounce time: press fires exactly when the reading lies strictly
      within the default margin 50 of the target, and nothing else fires. */
  lemma AnalogPressAfterDebounce(reading: int)
    ensures var a := NewAnalogButton(10, 10, 1000, true);
            var r1 := AnalogTick(a, reading, 0);
            var r2 := AnalogTick(r1.button, reading, 51);
            r1.events + r2.events == if 950 < reading < 1050 then [Press] else []
  {
  }

  /** The same with the margin widened to 100 before the first tick. */
  lemma AnalogPressAfterDebounceWideMargin(reading: int)
    ensures var a := SetVoltageMargin(NewAnalogButton(10, 10, 1000, true), 100);
            var r1 := AnalogTick(a, reading, 0);
            var r2 := AnalogTick(r1.button, reading, 51);
            r1.events + r2.events == if 900 < reading < 1100 then [Press] else []
  {
  }

  const DoubleClickBeforeClickTicksTrace: seq<Sample> := [Sample(true, 0), Sample(true, 51), Sample(false, 100), Sample(false, 100), Sample(true, 151), Sample(true, 151), Sample(false, 210), Sample(false, 210)]

  /** The first half of `DoubleClickBeforeClickTicks`, ending at the record the second half starts from. */
  lemma DoubleClickBeforeClickTicksFirstHalf()
    ensures Run(Init(), [Sample(true, 0), Sample(true, 51), Sample(false, 100), Sample(false, 100)]) == TickResult(Button(Released, false, false, 0, 100, DefaultThresholds, NoListeners), [Press, Release])
  {
  }

  /** The second half of `DoubleClickBeforeClickTicks`. */
  lemma DoubleClickBeforeClickTicksSecondHalf()
    ensures Run(Button(Released, false, false, 0, 100, DefaultThresholds, NoListeners), [Sample(true, 151), Sample(true, 151), Sample(false, 210), Sample(false, 210)]) == TickResult(Button(NotPressed, false, false, 151, 100, DefaultThresholds, NoListeners), [DoubleClick])
  {
  }

  /** Second press 51 ms after the first release, both releases debounced,
      two ticks per step: one press, one release, one double-click, and no
      click or long press. */
  lemma DoubleClickBeforeClickTicks()
    ensures var r := Run(Init(), DoubleClickBeforeClickTicksTrace);
            && r.events == [Press, Release, DoubleClick]
            && !IsPressed(r.button)
  {
    assert DoubleClickBeforeClickTicksTrace == [Sample(true, 0), Sample(true, 51), Sample(false, 100), Sample(false, 100)] + [Sample(true, 151), Sample(true, 151), Sample(false, 210), Sample(false, 210)];
    DoubleClickBeforeClickTicksFirstHalf();
    DoubleClickBeforeClickTicksSecondHalf();
    RunAppend(Init(), [Sample(true, 0), Sample(true, 51), Sample(false, 100), Sample(false, 100)], [Sample(true, 151), Sample(true, 151), Sample(false, 210), Sample(false, 210)]);
  }

  const DoubleClickAfterClickTicksTrace: seq<Sample> := [Sample(true, 0), Sample(true, 51), Sample(false, 240), Sample(false, 240), Sample(true, 301), Sample(true, 301), Sample(false, 401), Sample(false, 401)]

  /** The first half of `DoubleClickAfterClickTicks`, ending at the record the second half starts from. */
  lemma DoubleClickAfterClickTicksFirstHalf()
    ensures Run(Init(), [Sample(true, 0), Sample(true, 51), Sample(false, 240), Sample(false, 240)]) == TickResult(Button(Released, false, false, 0, 240, DefaultThresholds, NoListeners), [Press, Release])
  {
  }

  /** The second half of `DoubleClickAfterClickTicks`. */
  lemma DoubleClickAfterClickTicksSecondHalf()
    ensures Run(Button(Released, false, false, 0, 240, DefaultThresholds, NoListeners), [Sample(true, 301), Sample(true, 301), Sample(false, 401), Sample(false, 401)]) == TickResult(Button(NotPressed, false, false, 301, 240, DefaultThresholds, NoListeners), [DoubleClick])
  {
  }

  /** The first release comes just before the click time and the second
      press after it: still a double-click, because the re-press test comes
      first in RELEASED. */
  lemma DoubleClickAfterClickTicks()
    ensures var r := Run(Init(), DoubleClickAfterClickTicksTrace);
            && r.events == [Press, Release, DoubleClick]
  {
    assert DoubleClickAfterClickTicksTrace == [Sample(true, 0), Sample(true, 51), Sample(false, 240), Sample(false, 240)] + [Sample(true, 301), Sample(true, 301), Sample(false, 401), Sample(false, 401)];
    DoubleClickAfterClickTicksFirstHalf();
    DoubleClickAfterClickTicksSecondHalf();
    RunAppend(Init(), [Sample(true, 0), Sample(true, 51), Sample(false, 240), Sample(false, 240)], [Sample(true, 301), Sample(true, 301), Sample(false, 401), Sample(false, 401)]);
  }

  const SingleClickTrace: seq<Sample> := [Sample(true, 0), Sample(true, 51), Sample(false, 60), Sample(false, 320)]

  /** Press, tick after the debounce time, release, and no re-press until
      past the click time: press, release, click. */
  lemma SingleClick()
    ensures var r := Run(Init(), SingleClickTrace);
            && r.events == [Press, Release, Click]
            && r.button.state == NotPressed
  {
  }

  const HeldLongPressTrace: seq<Sample> := [Sample(true, 0), Sample(true, 600)]

  /** Held for 600 ms: press and long-press-start while held, and the
      button reports a long press. */
  lemma HeldLongPress()
    ensures var r := Run(Init(), HeldLongPressTrace);
            && r.events == [Press, LongPressStart]
            && IsLongPressed(r.button)
  {
  }

  const HeldLongPressReleasedTrace: seq<Sample> := [Sample(true, 0), Sample(true, 600), Sample(false, 650), Sample(false, 650)]

  /** The long press of `HeldLongPress`, released at 650 ms and ticked
      twice: release and long-press-end follow, with no click and no
      double-click. */
  lemma HeldLongPressReleased()
    ensures var r := Run(Init(), HeldLongPressReleasedTrace);
            && r.events == [Press, LongPressStart, Release, LongPressEnd]
            && !IsPressed(r.button) && !r.button.isLongPress
  {
  }

  const MockClockJumpFiresPressTrace: seq<Sample> := [Sample(true, 4294966), Sample(true, 1)]

  /** The clock discontinuity of the overflow scenario: the press edge is
      stamped at 4294966 ms (a 32-bit microsecond counter 1000 us before
      its wrap, divided by 1000) and the next reading is 1 ms. The unsigned
      difference is close to 2^32, far above the debounce and long-press
      times, so press (the documented false positive) and long-press-start
      both fire on that first tick. */
  lemma MockClockJumpFiresPress()
    ensures var r := Run(Init(), MockClockJumpFiresPressTrace);
            && r.events == [Press, LongPressStart]
            && Count(r.events, Press) == 1
            && Elapsed(1, 4294966) == WORD - 4294965
  {
  }

  const GenuineWrapMeasuredTrace: seq<Sample> := [Sample(true, WORD - 1), Sample(true, 1)]

  /** A press stamped one millisecond before the 32-bit millisecond counter
      wraps is timed correctly across the wrap: 2 ms later, at reading 1,
      nothing fires. */
  lemma GenuineWrapMeasured()
    ensures var r := Run(Init(), GenuineWrapMeasuredTrace);
            && Elapsed(1, WORD - 1) == 2
            && r.events == []
            && IsPressed(r.button)
  {
    var b0 := Init();
    var t0 := Tick(b0, true, WORD - 1);
    RunCons(b0, Sample(true, WORD - 1), [Sample(true, 1)]);
    var b1 := t0.button;
    RunCons(b1, Sample(true, 1), []);
  }

  const GenuineWrapPressAfterDebounceTrace: seq<Sample> := [Sample(true, WORD - 1), Sample(true, 1), Sample(true, 51)]

  /** The same press, still held 52 ms after its edge: press fires, as it
      would without a wrap. */
  lemma GenuineWrapPressAfterDebounce()
    ensures var r := Run(Init(), GenuineWrapPressAfterDebounceTrace);
            && Elapsed(51, WORD - 1) == 52
            && r.events == [Press]
  {
    var b0 := Init();
    var t0 := Tick(b0, true, WORD - 1);
    RunCons(b0, Sample(true, WORD - 1), [Sample(true, 1), Sample(true, 51)]);
    var b1 := t0.button;
    var t1 := Tick(b1, true, 1);
    RunCons(b1, Sample(true, 1), [Sample(true, 51)]);
    var b2 := t1.button;
    RunCons(b2, Sample(true, 51), []);
  }

  const ActiveLowPressDetectedTrace: seq<O.LevelSample> := [O.LevelSample(Low, 0)]

  /** Active-low button, pin pulled LOW, one tick: pressed, and nothing
      notified yet. */
  lemma ActiveLowPressDetected()
    ensures var r := O.Run(O.NewObjectButton(10, true), ActiveLowPressDetectedTrace);
            && r.events == []
            && O.IsPressed(r.button)
  {
  }

  const ActiveHighPressDetectedTrace: seq<O.LevelSample> := [O.LevelSample(High, 0)]

  /** Active-high button, pin driven HIGH, one tick: pressed, and nothing
      notified yet. */
  lemma ActiveHighPressDetected()
    ensures var r := O.Run(O.NewObjectButton(10, false), ActiveHighPressDetectedTrace);
            && r.events == []
            && O.IsPressed(r.button)
  {
  }

  const IdleLevelNotPressedTrace: seq<O.LevelSample> := [O.LevelSample(High, 0)]

  /** Active-low button reading HIGH: not pressed, and silent. */
  lemma IdleLevelNotPressed()
    ensures var r := O.Run(O.NewObjectButton(10, true), IdleLevelNotPressedTrace);
            && r.events == []
            && !O.IsPressed(r.button)
  {
  }

  const PressReleaseDefaultDebounceTrace: seq<O.LevelSample> := [O.LevelSample(Low, 0), O.LevelSample(Low, 51), O.LevelSample(High, 60), O.LevelSample(High, 60)]

  /** Held past the default debounce time, released at 60 ms and ticked
      twice: press and release only, no click yet, no double-click. */
  lemma PressReleaseDefaultDebounce()
    ensures var r := O.Run(O.NewObjectButton(10, true), PressReleaseDefaultDebounceTrace);
            && r.events == [Press, Release]
            && !O.IsPressed(r.button)
  {
  }

  const PressReleaseCustomDebounceTrace: seq<O.LevelSample> := [O.LevelSample(Low, 0), O.LevelSample(Low, 31), O.LevelSample(High, 40), O.LevelSample(High, 40)]

  /** The same gesture with the debounce time set to 30 ms, released at 40 ms. */
  lemma PressReleaseCustomDebounce()
    ensures var r := O.Run(O.SetDebounceTicks(O.NewObjectButton(10, true), 30), PressReleaseCustomDebounceTrace);
            && r.events == [Press, Release]
            && !O.IsPressed(r.button)
  {
  }

  const BounceWithinDefaultDebounceTrace: seq<O.LevelSample> := [O.LevelSample(Low, 0), O.LevelSample(Low, 0), O.LevelSample(High, 49), O.LevelSample(High, 49)]

  /** Released after 49 ms, within the default debounce time: no
      notification at all and back to not pressed. */
  lemma BounceWithinDefaultDebounce()
    ensures var r := O.Run(O.NewObjectButton(10, true), BounceWithinDefaultDebounceTrace);
            && r.events == []
            && !O.IsPressed(r.button)
  {
  }

  const BounceWithinCustomDebounceTrace: seq<O.LevelSample> := [O.LevelSample(Low, 0), O.LevelSample(High, 29)]

  /** Released after 29 ms with a 30 ms debounce time: no notification. */
  lemma BounceWithinCustomDebounce()
    ensures var r := O.Run(O.SetDebounceTicks(O.NewObjectButton(10, true), 30), BounceWithinCustomDebounceTrace);
            && r.events == []
            && !O.IsPressed(r.button)
  {
  }

  const HeldExactlyLongPressTicksTrace: seq<O.LevelSample> := [O.LevelSample(Low, 0), O.LevelSample(Low, 500)]

  /** Held for exactly the long-press time: pressed, but not long pressed
      and no long-press-start. */
  lemma HeldExactlyLongPressTicks()
    ensures var r := O.Run(O.NewObjectButton(10, true), HeldExactlyLongPressTicksTrace);
            && r.events == [Press]
            && O.IsPressed(r.button) && !O.IsLongPressed(r.button)
  {
  }

  const HeldExactlyLongPressTicksReleasedTrace: seq<O.LevelSample> := [O.LevelSample(Low, 0), O.LevelSample(Low, 500), O.LevelSample(High, 500)]

  /** The same press released at 500 ms: neither long-press notification,
      no click, no double-click. */
  lemma HeldExactlyLongPressTicksReleased()
    ensures var r := O.Run(O.NewObjectButton(10, true), HeldExactlyLongPressTicksReleasedTrace);
            && r.events == [Press, Release]
  {
  }
}
